=== FILE: README.md ===
# calcit calculators in Dafny

calcit is a TypeScript library of small financial and fitness calculators.
Each calculator checks its arguments and throws when one is out of range. It
then evaluates a closed formula or a short loop. Most calculators round the
result with `parseFloat(x.toFixed(2))`. The heart-rate band ends use
`Math.round` instead, and the withdrawal-duration calculator returns its month
count unrounded. This project models those calculators over
Dafny's exact `real` arithmetic and proves what the formulas promise:
- the loans are repaid;
- the loops compute their closed forms;
- the withdrawal plan drains the corpus in the requested time;
- the category ladders split the number line as intended.

Layout: one module per source file, plus three shared modules.
- `Results` (results.dfy): a thrown error becomes `Err`, tagged `InvalidArgument` for a
  failed guard and `NotAFunction` for a call through a name that was never
  exported.
- `Numeric` (numeric.dfy): powers and geometric sums, and `Round2`, which is
  `parseFloat(x.toFixed(2))` as section 21.1.3.3 of ECMA-262 defines `toFixed`.
  `Round2` rounds the magnitude to the nearest cent, takes the larger cent on a
  tie, restores the sign, and returns magnitudes of 10^21 or more unchanged.
  - `JsRound` is `Math.round` (section 21.3.2.28 of ECMA-262).
  - `Number` is a JavaScript number that may be NaN or infinite.
- `Annuity` (annuity.dfy): the time-value mathematics the loan and investment
  files share.
  - The month-by-month balance recurrence and the amortisation payment.
  - The annuity-due value of a savings plan.
  - Compound growth.
  - The loan-details record.

Periods (months, years, compounding counts) are `nat`, except the simple-interest
time, which is `real` because that calculator accepts fractional years. Amounts,
rates, ages and repetitions are `real`. String enumerations (gender, activity level, goal,
intensity, exercise, unit) are datatypes. For five of them the source throws on
any other string; those branches cannot be reached here and are not modelled as
errors. The exercise has no such branch: any other string takes the generic
estimate, which the `Generic` constructor stands for.

## Model

| member | source | states |
|---|---|---|
| Numeric.Round2Error | src/calculations/loan/emi.ts:21 | rounding to two decimals moves a value by at most half a cent |
| Numeric.Round2Monotone | src/calculations/loan/emi.ts:21 | rounding to two decimals never reverses the order of two values |
| Numeric.Round2Idempotent | src/calculations/loan/totalInterestPaid.ts:19 | rounding an already rounded value changes nothing |
| Numeric.JsRoundBounds | src/calculations/fitness/heartRate.ts:47-48 | `Math.round` returns an integer within half a unit of its argument |
| Annuity.RemainingClosedForm | src/calculations/investment/investmentCalculators.ts:99-106 | the monthly balance recurrence equals c·(1+i)^k less the withdrawals' geometric sum |
| Annuity.RemainingNeverBelowStart | src/calculations/investment/investmentCalculators.ts:99-106 | when each withdrawal is at most the first month's growth, the balance never falls below the starting corpus |
| Annuity.LevelPaymentBalance | src/calculations/loan/emi.ts:20 | after k amortisation payments the balance is p·((1+i)^n − (1+i)^k)/((1+i)^n − 1) |
| Annuity.LevelPaymentClears | src/calculations/loan/emi.ts:20 | the amortisation payment clears the loan exactly at month n and leaves a positive balance before it |
| Annuity.LevelPaymentBounds | src/calculations/loan/emi.ts:20 | the payment exceeds the first month's interest, and n payments exceed the principal |
| Annuity.LevelPaymentAboveInterest | src/calculations/loan/emi.ts:20 | the payment exceeds the first month's interest p·i |
| Annuity.LevelPaymentRepays | src/calculations/loan/emi.ts:20 | n payments together exceed the principal |
| Annuity.LevelPaymentSingleTerm | src/calculations/loan/emi.ts:20 | a one-payment loan repays principal plus one month's interest |
| Annuity.AccumulatedSplit | src/calculations/investment/sip.ts:16 | a + n months of deposits are the first n months' value grown for a more months, plus a fresh a-month plan |
| Annuity.SipValueIsAccumulated | src/calculations/investment/sip.ts:16 | the closed-form annuity-due value equals the month-by-month accumulation of the deposits |
| Annuity.SipValueExceedsDeposits | src/calculations/investment/sip.ts:16 | a plan with positive return is worth more than the money put in |
| Annuity.SipValueIncreasing | src/calculations/investment/sip.ts:16 | one more month of deposits gives a strictly larger value |
| Annuity.SipValueSingleMonth | src/calculations/investment/sip.ts:16 | a single deposit grows for one month |
| Annuity.CompoundedIncreasing | src/calculations/investment/savingAndTaxCalculators.ts:26 | a larger sum compounded for one more period ends strictly larger |
| Annuity.CompoundedGrowth | src/calculations/investment/investmentCalculators.ts:159-160 | compounding for n periods earns at least simple interest over n periods (Bernoulli) |
| Annuity.Totals | src/calculations/investment/homeLoan.ts:48-54 | the two rounded totals differ from the principal by at most a cent |
| Emi.CalculateEmi | src/calculations/loan/emi.ts:10-22 | fails exactly when principal, rate or term is not positive; otherwise returns the rounded payment, which is positive, repays more than the principal over the term and first empties the balance in month `term`; the zero-rate branch cannot be reached |
| Emi.SingleMonthEmi | src/calculations/loan/emi.ts:20-21 | a one-month loan costs principal·(1 + rate/1200), rounded |
| TotalInterestPaid.CalculateTotalInterestPaid | src/calculations/loan/totalInterestPaid.ts:11-20 | rejects exactly what the months-based instalment rejects, so the inner call never fails; the value is the rounded instalment times the term, less the principal, rounded |
| TotalInterestPaid.InterestAboveRoundingLoss | src/calculations/loan/totalInterestPaid.ts:16-19 | the reported interest can be negative only through the rounded instalment, by at most half a cent per payment |
| TotalInterestPaid.RoundedInstalmentShortfall | src/calculations/loan/totalInterestPaid.ts:17-19 | if the unrounded payment covers the principal, the rounded one falls short by at most half a cent per payment |
| TotalInterestPaid.UnroundedInterestPositive | src/calculations/loan/totalInterestPaid.ts:17-18 | with the unrounded instalment the interest would be strictly positive |
| FinancialCalculators.CalculateEmi | src/calculations/investment/financialCalculators.ts:9-30 | the years-based instalment is the months-based one over 12·years months: same rejections, a positive payment whose 12·years instalments exceed the principal |
| HomeLoan.CalculateMonthlyPayment | src/calculations/investment/homeLoan.ts:9-28 | dividing the rate by 100 and then by 12 gives the same rate, so this agrees with the years-based instalment on every input, errors included |
| HomeLoan.CalculateLoanDetails | src/calculations/investment/homeLoan.ts:38-56 | fails exactly when the payment fails, with no partial record; the totals are the rounded payment times 12·years and that less the principal, each rounded, and they differ from the principal by at most a cent |
| PersonalLoan.CalculatePersonalLoanMonthlyPayment | src/calculations/loan/personalLoan.ts:10-29 | agrees with the home-loan payment on every input; its unrounded payments exceed the principal |
| PersonalLoan.CalculatePersonalLoanDetails | src/calculations/loan/personalLoan.ts:40-58 | fails exactly when its payment fails; same totals and cent bound as the home-loan details, which it equals |
| EducationLoan.CalculateEducationMonthlyPayment | src/calculations/loan/educationLoan.ts:9-28 | agrees with the home-loan payment on every input; the unrounded payment is positive and its payments exceed the principal |
| EducationLoan.CalculateEducationLoanDetails | src/calculations/loan/educationLoan.ts:38-56 | fails exactly when an argument is not positive; same totals and cent bound as the home-loan details, which it equals |
| Sip.CalculateSip | src/calculations/investment/sip.ts:10-18 | fails exactly when an argument is not positive; otherwise the rounded month-by-month accumulation of `totalMonths` deposits, each growing from the start of its month, which exceeds the total deposited |
| Sip.SingleMonthSip | src/calculations/investment/sip.ts:16-17 | a one-month plan is the deposit grown by one month's return |
| Sip.SipMonotoneInTerm | src/calculations/investment/sip.ts:16-17 | a plan one month longer never reports less |
| InvestmentCalculators.CalculateSip | src/calculations/investment/investmentCalculators.ts:10-28 | the years-based SIP is the months-based SIP over 12·years months, on every input |
| InvestmentCalculators.CalculateStepUpSip | src/calculations/investment/investmentCalculators.ts:40-73 | fails exactly when investment, rate or years is not positive or the step-up is negative (a zero step-up is accepted); otherwise the rounded sum the year loop builds |
| InvestmentCalculators.StepUpSipLoop | src/calculations/investment/investmentCalculators.ts:57-72 | the year loop, with its mutable running total, returns the same value as the calculator |
| InvestmentCalculators.StepUpOneYearIsSip | src/calculations/investment/investmentCalculators.ts:60-72 | a one-year step-up plan equals the plain one-year SIP |
| InvestmentCalculators.StepUpSumGrows | src/calculations/investment/investmentCalculators.ts:60-70 | each pass of the year loop adds at least one year's plain SIP value of the first instalment |
| InvestmentCalculators.StepUpSumExceedsFirst | src/calculations/investment/investmentCalculators.ts:60-70 | from the second pass on, the running total exceeds the first pass's full-term annuity by at least a year's plain SIP value |
| InvestmentCalculators.StepUpOverCounts | src/calculations/investment/investmentCalculators.ts:60-70 | as written, a flat plan of at least a cent a month over two or more years reports more than the plain SIP over the same months |
| InvestmentCalculators.CalculateStepUpSipCorrected | src/calculations/investment/investmentCalculators.ts:40-73 | same rejections; the rounded value of each year's stepped-up instalment deposited over its own twelve months, with all earlier savings growing on |
| InvestmentCalculators.StepUpValueFlat | src/calculations/investment/investmentCalculators.ts:60-70 | without a step-up the intended year-by-year value is the plain SIP over 12·years months |
| InvestmentCalculators.SipValueOneMoreYear | src/calculations/investment/investmentCalculators.ts:23-26 | a year more of deposits is the savings so far grown twelve months, plus a fresh year's plan |
| InvestmentCalculators.SipValueSplit | src/calculations/investment/investmentCalculators.ts:23-26 | the closed-form SIP over a + n months splits into the n-month value grown a months, plus an a-month plan |
| InvestmentCalculators.StepUpCorrectedFlatIsSip | src/calculations/investment/investmentCalculators.ts:40-73 | the corrected step-up calculator with zero step-up equals the years-based SIP on every input |
| InvestmentCalculators.DepletionStep | src/calculations/investment/investmentCalculators.ts:99-106 | one month of drawdown keeps the withdrawal above the growth and uses up at least one unit of the month bound |
| InvestmentCalculators.BoundPositive | src/calculations/investment/investmentCalculators.ts:99-106 | a bound whose shortfalls cover a positive corpus allows at least one month |
| InvestmentCalculators.CeilingCovers | src/calculations/investment/investmentCalculators.ts:99-106 | ⌈c/d⌉ shortfalls of d cover the corpus c |
| InvestmentCalculators.SwpMonthsBound | src/calculations/investment/investmentCalculators.ts:99-106 | ⌈C/(W − C·i)⌉ is at least one and enough first-month shortfalls to exhaust the corpus |
| InvestmentCalculators.MonthsUntilDepleted | src/calculations/investment/investmentCalculators.ts:99-108 | when the withdrawal exceeds the growth the loop stops within ⌈C/(W − C·i)⌉ months, at the first month the balance is no longer positive |
| InvestmentCalculators.DepletionFirstMonth | src/calculations/investment/investmentCalculators.ts:99-106 | if the first month empties the corpus, the loop reports month 1 |
| InvestmentCalculators.FirstDepletionShift | src/calculations/investment/investmentCalculators.ts:99-106 | the first depletion month of the balance after one month, plus one, is the first depletion month of the original corpus |
| InvestmentCalculators.NeverDepletes | src/calculations/investment/investmentCalculators.ts:99-106 | when the withdrawal is at most the growth the balance never falls below the corpus, so the loop has no exit |
| InvestmentCalculators.CalculateSwpDuration | src/calculations/investment/investmentCalculators.ts:84-109 | fails exactly on a non-positive corpus or withdrawal or a negative rate; the loop runs forever exactly when the withdrawal is at most the first month's growth; otherwise it reports the first month the balance is no longer positive, within the ceiling bound |
| InvestmentCalculators.SwpDurationWithoutReturn | src/calculations/investment/investmentCalculators.ts:89-108 | at a zero rate the corpus lasts ⌈corpus/withdrawal⌉ months |
| InvestmentCalculators.CalculateSwpAmount | src/calculations/investment/investmentCalculators.ts:120-137 | fails exactly on a non-positive corpus or duration or a negative rate; at a positive rate returns the rounded amortisation payment; at a zero rate returns NaN |
| InvestmentCalculators.WithdrawalIsLevelPayment | src/calculations/investment/investmentCalculators.ts:131-134 | at a positive rate C·i/(1 − (1+i)^−n) is the amortisation payment; at a zero rate numerator and denominator are both zero |
| InvestmentCalculators.SwpAmountZeroRateIsNaN | src/calculations/investment/investmentCalculators.ts:125-136 | every accepted zero-rate request yields NaN |
| InvestmentCalculators.CalculateSwpAmountCorrected | src/calculations/investment/investmentCalculators.ts:120-137 | same rejections; an equal share C/n at a zero rate; agrees with the calculator as written at every positive rate |
| InvestmentCalculators.EqualShareClears | src/calculations/investment/investmentCalculators.ts:99-106 | with no growth, an equal n-th share of the corpus first empties it in month n |
| InvestmentCalculators.SwpRoundTrip | src/calculations/investment/investmentCalculators.ts:131-134 | withdrawing the unrounded corrected amount makes the duration calculator report exactly the requested number of months, at every admitted rate |
| InvestmentCalculators.CalculateLumpsum | src/calculations/investment/investmentCalculators.ts:148-162 | fails exactly when an argument is not positive; otherwise the rounded yearly compound value, which is at least simple interest on top of the principal and exceeds the principal |
| DepositCalculators.CalculateFd | src/calculations/investment/depositCalculators.ts:11-32 | fails exactly when principal, rate, years or compounding frequency is not positive (the frequency defaults to yearly); otherwise the rounded maturity, which exceeds the principal |
| DepositCalculators.FdInterestIsCompoundInterest | src/calculations/investment/depositCalculators.ts:28-30 | maturity less principal is the unrounded compound interest for the same inputs |
| DepositCalculators.FdAnnualIsLumpsum | src/calculations/investment/depositCalculators.ts:15-31 | with the default frequency a fixed deposit equals the lumpsum calculator on every input |
| DepositCalculators.CalculateRd | src/calculations/investment/depositCalculators.ts:43-65 | fails exactly when an argument is not positive; otherwise 12·years deposits, summed by the loop to the rounded geometric sum m·(1 + c + … + c^(n−1)), which is at least the total deposited |
| DepositCalculators.RdLoop | src/calculations/investment/depositCalculators.ts:54-64 | the month loop, with its mutable running total, returns the same value as the calculator |
| DepositCalculators.RdSumPartial | src/calculations/investment/depositCalculators.ts:58-62 | after k passes the loop's total r, plus m times the geometric sum of the n − k exponents still to come, is m times the full geometric sum (each quantity passed in by name) |
| DepositCalculators.RdSumClosedForm | src/calculations/investment/depositCalculators.ts:58-62 | the loop's final total is the closed-form geometric sum |
| DepositCalculators.CubeRootAboveOne | src/calculations/investment/depositCalculators.ts:54-61 | the monthly growth factor, the cube root of the quarterly factor, exceeds 1 at a positive rate |
| DepositCalculators.CubeRootPowers | src/calculations/investment/depositCalculators.ts:61 | the factor to a whole multiple 3k is the quarterly factor to the k, so whole-quarter exponents agree with `Math.pow` |
| DepositCalculators.RdAtLeastDeposits | src/calculations/investment/depositCalculators.ts:58-62 | the maturity is at least the money deposited |
| DepositCalculators.RdTermsNonIncreasing | src/calculations/investment/depositCalculators.ts:58-62 | an earlier deposit contributes at least as much as any later one, and the last contributes exactly the instalment |
| SavingAndTaxCalculators.CalculatePpf | src/calculations/investment/savingAndTaxCalculators.ts:9-30 | fails exactly when an argument is not positive (15 years by default); otherwise the rounded final value the loop leaves, n·A grown for n years, which exceeds the n·A paid in |
| SavingAndTaxCalculators.PpfLoop | src/calculations/investment/savingAndTaxCalculators.ts:20-29 | the year loop, which overwrites its maturity each pass, returns the same value as the calculator |
| SavingAndTaxCalculators.PpfIncreasing | src/calculations/investment/savingAndTaxCalculators.ts:23-27 | one more year gives a strictly larger maturity |
| CompoundInterest.CalculateCompoundInterest | src/calculations/investment/compoundInterest.ts:10-18 | fails exactly when an argument is not positive; otherwise the rounded interest alone (amount less principal), which is at least the positive simple interest |
| CompoundInterest.CompoundBeatsSimple | src/calculations/investment/compoundInterest.ts:15-16 | compound interest is at least the simple interest P·r·years/100, which is positive |
| CompoundInterest.SingleAnnualPeriod | src/calculations/investment/compoundInterest.ts:15-17 | compounding once for one year gives the rounded P·r/100 |
| SimpleInterest.CalculateSimpleInterest | src/calculations/investment/simpleInterest.ts:10-17 | fails exactly when an argument is not positive; otherwise the rounded P·r·t/100, whose unrounded value is positive |
| SimpleInterest.InterestSymmetric | src/calculations/investment/simpleInterest.ts:15 | the three arguments can be exchanged freely |
| SimpleInterest.InterestLinear | src/calculations/investment/simpleInterest.ts:15 | interest is additive and scales in the principal, and is additive in the time |
| Roi.CalculateRoi | src/calculations/financialRatios/roi.ts:9-16 | fails exactly on a non-positive investment or a negative final value; the unrounded return is positive exactly when the final value exceeds the investment, and neither it nor the rounded value is below −100 |
| Roi.RoiBounds | src/calculations/financialRatios/roi.ts:14-15 | a gain exactly when the value grew, and never below a total loss of −100 |
| Roi.RoiRoundTrip | src/calculations/financialRatios/roi.ts:14 | investment·(1 + ROI/100) recovers the final value |
| Roi.RoiBreakEvenAndTotalLoss | src/calculations/financialRatios/roi.ts:14-15 | getting the investment back reports 0 and getting nothing back reports −100 |
| DividendYield.CalculateDividendYield | src/calculations/financialRatios/dividendYield.ts:9-16 | fails exactly on negative dividends or a non-positive price; otherwise a non-negative rounded percentage |
| DividendYield.YieldRoundTrip | src/calculations/financialRatios/dividendYield.ts:14 | yield·price/100 recovers the dividends |
| DividendYield.YieldLandmarks | src/calculations/financialRatios/dividendYield.ts:14-15 | no dividends report 0, and dividends equal to the price report 100 |
| DividendYield.YieldMonotone | src/calculations/financialRatios/dividendYield.ts:14-15 | more dividends never lower the reported yield, and a higher price never raises it |
| Dti.CalculateDti | src/calculations/financialRatios/dti.ts:9-16 | fails exactly on negative debt or non-positive income; otherwise a non-negative rounded percentage |
| Dti.DtiIsDividendYield | src/calculations/financialRatios/dti.ts:9-16 | the ratio agrees with the dividend-yield calculator on every input, errors included |
| Dti.DtiLandmarks | src/calculations/financialRatios/dti.ts:14-15 | no debt reports 0, and debt equal to income reports 100 |
| Dti.DtiMonotoneInDebt | src/calculations/financialRatios/dti.ts:14-15 | more debt never lowers the reported ratio |
| Bmi.CalculateBmiAsWritten | src/calculations/fitness/bmi.ts:8-32 | fails exactly on a non-positive weight or height; the index is rounded first and the written ladder is applied to the rounded value |
| Bmi.AsWrittenBands | src/calculations/fitness/bmi.ts:19-29 | under the written ladder each category, in both directions: below 18.5, [18.5, 24.9), [25, 29.9), and obesity for [24.9, 25) together with 29.9 and above |
| Bmi.AsWrittenGap | src/calculations/fitness/bmi.ts:23-28 | as written, 24.95 kg at 1 m is obese while 25 kg at 1 m is only overweight |
| Bmi.CalculateBmi | src/calculations/fitness/bmi.ts:8-32 | same rejections and rounded index, categorised with contiguous bands |
| Bmi.Bands | src/calculations/fitness/bmi.ts:19-29 | each corrected category is one interval, in both directions: below 18.5, [18.5, 25), [25, 30), 30 and above |
| Bmi.CategorizeMonotone | src/calculations/fitness/bmi.ts:19-29 | a larger index never gets a lighter corrected category |
| Bmi.CalculateBmiMonotoneInWeight | src/calculations/fitness/bmi.ts:16-29 | more weight at the same height never gets a lighter corrected category |
| Bmi.Example | src/calculations/fitness/bmi.ts:16-24 | 70 kg at 1.75 m is index 22.86, normal weight, under both ladders |
| Bmr.CalculateBmr | src/calculations/fitness/bmr.ts:10-31 | fails exactly when weight, height or age is not positive; otherwise the rounded Mifflin-St Jeor rate, +5 for men and −161 for women |
| Bmr.MaleMinusFemale | src/calculations/fitness/bmr.ts:23-25 | for the same body the male equation gives exactly 166 more |
| Bmr.BmrMonotone | src/calculations/fitness/bmr.ts:23-25 | the rate rises with weight and height and falls with age, strictly when any one of them moves, and the rounded rate keeps the order |
| Calories.CalculateCalories | src/calculations/fitness/calories.ts:13-55 | with the rate bound to `BMR`: fails exactly when weight, height or age is not positive; otherwise the rounded rate times the activity multiplier, categorised from the rounded value |
| Calories.MultiplierIncreasing | src/calculations/fitness/calories.ts:27-33 | the multipliers strictly increase from sedentary to very active |
| Calories.TdeeIncreasingInActivity | src/calculations/fitness/calories.ts:41-42 | for a positive rate a more active level gives a strictly larger unrounded expenditure and never a smaller rounded one |
| Calories.Bands | src/calculations/fitness/calories.ts:44-52 | the three categories are the intervals below 1800, [1800, 2500) and 2500 and above, with no gap, in both directions |
| Calories.CalculateCaloriesAsWritten | src/calculations/fitness/calories.ts:20-24 | as written the calculator always throws: on a failed guard, or otherwise because the imported name is not a function |
| Calories.AsWrittenNeverReports | src/calculations/fitness/calories.ts:20-24 | every input the corrected calculator answers is one the written calculator fails on at the import |
| Macros.CalculateMacros | src/calculations/fitness/macros.ts:8-46 | fails exactly on a non-positive budget; otherwise the three rounded gram amounts, each non-negative, whose energy is within 0.085 kcal of the budget |
| Macros.RatiosSumToOne | src/calculations/fitness/macros.ts:19-22 | every goal's shares are positive and sum to exactly 1 |
| Macros.EnergyConserved | src/calculations/fitness/macros.ts:37-43 | the unrounded grams at 4, 9 and 4 kcal per gram give back exactly the budget |
| Macros.GramsPositive | src/calculations/fitness/macros.ts:37-43 | a positive budget gives positive unrounded grams of each nutrient, and non-negative rounded ones |
| Macros.GramsLinear | src/calculations/fitness/macros.ts:37-43 | the unrounded grams scale with the budget |
| HeartRate.CalculateHrrRange | src/calculations/fitness/heartRate.ts:9-51 | fails exactly on a non-positive age or resting rate; otherwise both band ends are the nearest integers, within half a beat, of resting plus the band's share of the reserve 206.9 − 0.67·age − resting |
| HeartRate.SharesOrdered | src/calculations/fitness/heartRate.ts:35-41 | each band's shares rise from bottom to top within [0, 1] |
| HeartRate.BandsDisjoint | src/calculations/fitness/heartRate.ts:35-41 | each band's top share is below every harder band's bottom share |
| HeartRate.RangeOrdered | src/calculations/fitness/heartRate.ts:35-48 | while the resting rate is at most the maximum, no band's reported bottom exceeds its top |
| HeartRate.BandEnds | src/calculations/fitness/heartRate.ts:36-48 | the very light band starts at the rounded resting rate and the very hard band ends at the rounded maximum |
| OneRepMax.CalculateOneRepMax | src/calculations/fitness/oneRepMax.ts:9-42 | fails exactly on a non-positive weight or repetition count; otherwise the rounded Epley estimate, which exceeds the weight lifted |
| OneRepMax.GenericIsDeadlift | src/calculations/fitness/oneRepMax.ts:12-34 | leaving out the exercise means the generic estimate, which equals the deadlift's |
| OneRepMax.ExerciseOrder | src/calculations/fitness/oneRepMax.ts:21-39 | for the same set: bench press below squat below deadlift, strictly before rounding and in order after it |
| OneRepMax.ThirtyRepsDouble | src/calculations/fitness/oneRepMax.ts:31-39 | thirty repetitions double the weight |
| ConvertWeight.ConvertWeight | src/calculations/fitness/convertWeight.ts:8-26 | fails exactly on a non-positive weight; `lb` multiplies by 2.20462 and gives more, `kg` divides and gives a smaller positive amount |
| ConvertWeight.RoundTrip | src/calculations/fitness/convertWeight.ts:15-20 | before rounding, converting one way and back returns the weight exactly, in both orders |
| ConvertWeight.RoundedRoundTrip | src/calculations/fitness/convertWeight.ts:15-25 | with both roundings, converting to pounds and back is off by at most 0.008, and converting to kilograms and back by at most 0.0161 |
| ConvertWeight.KilogramsFirstExceedsPoundsFirstBound | src/calculations/fitness/convertWeight.ts:15-25 | the kilograms-first round trip can miss by more than 0.008: 2.20462·1.005 comes back as 2.23 |

## Left out

- src/calculations/crypto/convertor.ts is not part of this model. It makes HTTP calls to a price service with a key from the environment and logs to the console.
- src/calculations/fitness/bodyFat.ts is not part of this model. Its formula rests on `Math.log10`, which exact `real` arithmetic cannot express.
- commitlint.config.js is contributor tooling with no runtime behaviour.
- IEEE-754 doubles. The model uses exact rationals, so it leaves out binary representation error, `toFixed` on binary halfway values, overflow and underflow.
- NaN and +Infinity arguments. They pass every `<= 0` guard in the source (−Infinity is rejected); here every argument is finite.
- Non-integer periods (fractional years, months or compounding counts) in the compounding, annuity and loan calculators. Those periods are `nat`; only the simple-interest time is `real`, as its formula has no power.
- DepositCalculators.CalculateRd: `Math.pow` of the quarterly factor at the fractional exponent (3Q − i)/3 is the cube root of that factor raised to 3Q − i. A real cube root cannot be defined by a terminating function here. The calculator therefore takes the monthly factor as an argument, required to be the positive cube root of 1 + rate/400.
- InvestmentCalculators.CalculateSwpDuration: when the withdrawal is at most the monthly growth the source loop never returns. The model reports this as `NeverDepleted` and proves that the balance never drops below the corpus.
- Error message strings and `console` output. A throw is `Err` with a reason tag only.
- Invalid enumeration strings for gender, activity level, goal, intensity and unit. Datatypes make these unrepresentable, so the source's error branches for them are not modelled. The exercise of src/calculations/fitness/oneRepMax.ts has no error branch: an unknown string falls through `default:` to the generic multiplier, although the documentation comment at line 7 says it throws. The model follows the code.
- Macros.GramsPositive: the rounded gram amounts are only shown non-negative, because a budget small enough rounds a nutrient to 0.00. The unrounded amounts are shown positive.
- ConvertWeight.ConvertWeight follows the code: `lb` means "convert to pounds" and `kg` means "convert to kilograms", although the documentation comment describes the tag as the unit of the input.
- HeartRate.RangeOrdered is stated only for a resting rate at most the maximum rate. Above it the reserve is negative and the band is reversed, as the source computes.

## Findings

| source | as written | input that shows it | evidently intended | confidence | as-written member | corrected member |
|---|---|---|---|---|---|---|
| src/calculations/investment/investmentCalculators.ts:60-70 | each year's stepped-up instalment is valued as an annuity over all remaining months, and these are added up, so every later year's deposits are counted on top of the first year's full-term annuity | initialInvestment 1000, annualReturnRate 12, totalYears 2, stepUpRate 0: the result exceeds `calculateSIP(1000, 12, 2)` | year k's instalment is deposited over that year's twelve months only, and with no step-up the plan equals the plain SIP | not executed | InvestmentCalculators.StepUpOverCounts | InvestmentCalculators.StepUpCorrectedFlatIsSip |
| src/calculations/investment/investmentCalculators.ts:125-134 | validation admits a zero return rate, where the formula divides 0 by 1 − 1^−n = 0 | initialCorpus 1000, durationMonths 10, annualReturnRate 0 gives NaN | a zero rate withdraws an equal share C/n each month | not executed | InvestmentCalculators.SwpAmountZeroRateIsNaN | InvestmentCalculators.SwpRoundTrip |
| src/calculations/fitness/bmi.ts:23-28 | the normal band ends at 24.9 and the overweight band at 29.9, so rounded values in [24.9, 25) and [29.9, 30) fall through to obesity | weight 24.95, height 1 gives obesity; weight 25, height 1 gives overweight | contiguous bands: normal below 25, overweight below 30, so that the category never gets lighter as the index grows | not executed | Bmi.AsWrittenGap | Bmi.CalculateBmiMonotoneInWeight |
| src/calculations/fitness/calories.ts:1 | the file imports `calculateBMR`, but bmr.ts exports the function as `BMR`, so the call at line 24 throws on every accepted input | weight 70, height 175, age 30, any gender and activity level | the rate is computed by bmr.ts `BMR` | not executed | Calories.AsWrittenNeverReports | Calories.CalculateCalories |

=== FILE: annuity.dfy ===
/** The time-value-of-money mathematics shared by the loan and investment
    calculators: the month-by-month drawdown of a balance, the level payment
    that clears it, and the annuity-due value of a monthly deposit. */
module Annuity {
  import opened Numeric

  // ---------------------------------------------------------------------------
  // Drawdown: a balance that grows at rate i and loses w each month
  // ---------------------------------------------------------------------------

  /** The balance after k months, each month adding its growth at rate i and
      then taking out w, written as the withdrawal loop writes it
      (`remaining + remaining * i - w`). A loan balance repaid by a fixed
      instalment follows the same recurrence. */
  function Remaining(c: real, i: real, w: real, k: nat): real
    decreases k
  {
    if k == 0 then c else Remaining(c + c * i - w, i, w, k - 1)
  }

  /** Month m (counting from 1) is the first at which the balance is no longer
      positive. */
  ghost predicate IsFirstDepletion(c: real, i: real, w: real, m: nat)
  {
    && m >= 1
    && Remaining(c, i, w, m) <= 0.0
    && forall k :: 1 <= k < m ==> Remaining(c, i, w, k) > 0.0
  }

  lemma FirstDepletionUnique(c: real, i: real, w: real, m1: nat, m2: nat)
    requires IsFirstDepletion(c, i, w, m1) && IsFirstDepletion(c, i, w, m2)
    ensures m1 == m2
  {
  }

  /** Closed form: c·(1+i)^k less w·(1 + (1+i) + ... + (1+i)^(k-1)). */
  lemma {:induction false} RemainingClosedForm(c: real, i: real, w: real, k: nat)
    ensures Remaining(c, i, w, k) == c * Pow(1.0 + i, k) - w * GeomSum(1.0 + i, k)
  {
    RemainingFactored(c, i, w, k, Remaining(c, i, w, k), Pow(1.0 + i, k), GeomSum(1.0 + i, k));
  }

  /** RemainingClosedForm with the balance, the power and the sum named, so
      that each product in the induction is over names. */
  lemma {:induction false} RemainingFactored(c: real, i: real, w: real, k: nat, r: real, g: real, s: real)
    requires r == Remaining(c, i, w, k) && g == Pow(1.0 + i, k) && s == GeomSum(1.0 + i, k)
    ensures r == c * g - w * s
    decreases k
  {
    if k > 0 {
      var c' := c + c * i - w;
      var g', s' := Pow(1.0 + i, k - 1), GeomSum(1.0 + i, k - 1);
      assert r == Remaining(c', i, w, k - 1);
      RemainingFactored(c', i, w, k - 1, r, g', s');
      PowNextFactored(1.0 + i, k - 1, g, g');
      GeomSumNext(1.0 + i, k - 1);
      RemainingStep(r, c, c', i, w, g, g', s, s');
    }
  }

  /** One month of the drawdown in closed form: a balance c' = c + c·i − w
      that is c'·g' − w·s' is c·g − w·s for g = (1+i)·g' and s = s' + g'. */
  lemma RemainingStep(r: real, c: real, c': real, i: real, w: real, g: real, g': real, s: real, s': real)
    requires c' == c + c * i - w && r == c' * g' - w * s'
    requires g == (1.0 + i) * g' && s == s' + g'
    ensures r == c * g - w * s
  {
    assert c' * g' == c * g' + c * i * g' - w * g';
  }

  /** Without growth the balance falls by w each month. */
  lemma {:induction false} RemainingWithoutGrowth(c: real, w: real, k: nat)
    ensures Remaining(c, 0.0, w, k) == c - (k as real) * w
    decreases k
  {
    if k > 0 {
      RemainingWithoutGrowth(c - w, w, k - 1);
    }
  }

  /** When w does not exceed the first month's growth, the balance never drops
      below where it started. */
  lemma {:induction false} RemainingNeverBelowStart(c: real, i: real, w: real, k: nat)
    requires c > 0.0 && i >= 0.0 && w <= c * i
    ensures Remaining(c, i, w, k) >= c
    decreases k
  {
    if k > 0 {
      var c' := c + c * i - w;
      assert c' >= c;
      MulMonotone(i, c, c');
      RemainingNeverBelowStart(c', i, w, k - 1);
    }
  }

  // ---------------------------------------------------------------------------
  // The level payment of the amortisation formula
  // ---------------------------------------------------------------------------

  /** The amortisation formula p·i·(1+i)^n / ((1+i)^n − 1) for monthly rate i
      and n payments. */
  function LevelPayment(p: real, i: real, n: nat): real
    requires i > 0.0 && n >= 1
  {
    PowGreaterThanOne(1.0 + i, n);
    p * i * Pow(1.0 + i, n) / (Pow(1.0 + i, n) - 1.0)
  }

  /** The level payment times ((1+i)^n − 1) is p·i·(1+i)^n. */
  lemma LevelPaymentScaled(p: real, i: real, n: nat)
    requires i > 0.0 && n >= 1
    ensures LevelPayment(p, i, n) * (Pow(1.0 + i, n) - 1.0) == p * i * Pow(1.0 + i, n)
    ensures Pow(1.0 + i, n) > 1.0
  {
    PowGreaterThanOne(1.0 + i, n);
  }

  /** After k <= n level payments the balance is p·((1+i)^n − (1+i)^k)/((1+i)^n − 1). */
  lemma LevelPaymentBalance(p: real, i: real, n: nat, k: nat)
    requires i > 0.0 && 1 <= n && k <= n
    ensures Remaining(p, i, LevelPayment(p, i, n), k) * (Pow(1.0 + i, n) - 1.0)
         == p * (Pow(1.0 + i, n) - Pow(1.0 + i, k))
  {
    // Every product below is over these names (see AccumulatedSplit).
    var e := LevelPayment(p, i, n);
    var r, g, gk, sk := Remaining(p, i, e, k), Pow(1.0 + i, n), Pow(1.0 + i, k), GeomSum(1.0 + i, k);
    RemainingFactored(p, i, e, k, r, gk, sk);
    GeomSumRateFactored(i, k, sk, gk);
    LevelPaymentScaledFactored(p, i, n, e, g);
    BalanceAlgebra(p, i, e, g, gk, sk, r);
    BalanceRenamed(r, g, gk, Remaining(p, i, e, k), Pow(1.0 + i, n), Pow(1.0 + i, k), p);
  }

  /** LevelPaymentScaled with the payment and the power named. */
  lemma LevelPaymentScaledFactored(p: real, i: real, n: nat, e: real, g: real)
    requires i > 0.0 && n >= 1
    requires e == LevelPayment(p, i, n) && g == Pow(1.0 + i, n)
    ensures e * (g - 1.0) == p * i * g
  {
    LevelPaymentScaled(p, i, n);
  }

  /** With e·(g − 1) = p·i·g and i·s = g_k − 1, a balance r = p·g_k − e·s
      times (g − 1) is p·(g − g_k). */
  lemma BalanceAlgebra(p: real, i: real, e: real, g: real, gk: real, s: real, r: real)
    requires e * (g - 1.0) == p * i * g
    requires i * s == gk - 1.0
    requires r == p * gk - e * s
    ensures r * (g - 1.0) == p * (g - gk)
  {
    calc {
      r * (g - 1.0);
      (p * gk - e * s) * (g - 1.0);
      p * gk * (g - 1.0) - s * (e * (g - 1.0));
      p * gk * (g - 1.0) - s * (p * i * g);
      p * gk * (g - 1.0) - p * g * (i * s);
      p * gk * (g - 1.0) - p * g * (gk - 1.0);
      p * (g - gk);
    }
  }

  /** The balance identity carried over from named values to equal ones. */
  lemma BalanceRenamed(r: real, g: real, gk: real, r': real, g': real, gk': real, p: real)
    requires r == r' && g == g' && gk == gk'
    requires r * (g - 1.0) == p * (g - gk)
    ensures r' * (g' - 1.0) == p * (g' - gk')
  {
  }

  /** The level payment clears the balance in exactly n months: it is positive
      before month n and exactly zero at month n. */
  lemma LevelPaymentClears(p: real, i: real, n: nat)
    requires p > 0.0 && i > 0.0 && n >= 1
    ensures Remaining(p, i, LevelPayment(p, i, n), n) == 0.0
    ensures IsFirstDepletion(p, i, LevelPayment(p, i, n), n)
  {
    var b := 1.0 + i;
    var g := Pow(b, n);
    var e := LevelPayment(p, i, n);
    PowGreaterThanOne(b, n);
    LevelPaymentBalance(p, i, n, n);
    assert Remaining(p, i, e, n) * (g - 1.0) == 0.0;
    forall k | 1 <= k < n
      ensures Remaining(p, i, e, k) > 0.0
    {
      LevelPaymentBalance(p, i, n, k);
      PowStrictlyIncreasing(b, k, n);
      MulPositive(p, g - Pow(b, k));
      var r := Remaining(p, i, e, k);
      if r <= 0.0 {
        MulMonotone(g - 1.0, r, 0.0);
        assert false;
      }
    }
  }

  /** The level payment exceeds the first month's interest p·i, and n of them
      repay more than the principal. */
  lemma LevelPaymentBounds(p: real, i: real, n: nat)
    requires p > 0.0 && i > 0.0 && n >= 1
    ensures LevelPayment(p, i, n) > p * i > 0.0
    ensures LevelPayment(p, i, n) * (n as real) > p
  {
    LevelPaymentAboveInterest(p, i, n);
    LevelPaymentRepays(p, i, n);
  }

  /** The level payment exceeds the first month's interest. */
  lemma LevelPaymentAboveInterest(p: real, i: real, n: nat)
    requires p > 0.0 && i > 0.0 && n >= 1
    ensures LevelPayment(p, i, n) > p * i > 0.0
  {
    LevelPaymentScaled(p, i, n);
    ExceedsInterest(p, i, Pow(1.0 + i, n), LevelPayment(p, i, n));
  }

  /** n level payments repay more than the principal. */
  lemma LevelPaymentRepays(p: real, i: real, n: nat)
    requires p > 0.0 && i > 0.0 && n >= 1
    ensures LevelPayment(p, i, n) * (n as real) > p
  {
    LevelPaymentScaled(p, i, n);
    GeomSumRate(i, n);
    GeomSumBelowCountTimesTop(1.0 + i, n);
    RepaysPrincipal(p, i, n as real, Pow(1.0 + i, n), GeomSum(1.0 + i, n), LevelPayment(p, i, n));
  }

  /** From e·(g − 1) = p·i·g with g > 1: e·(g − 1) = p·i·g > p·i·(g − 1),
      so e > p·i. */
  lemma ExceedsInterest(p: real, i: real, g: real, e: real)
    requires p > 0.0 && i > 0.0 && g > 1.0
    requires e * (g - 1.0) == p * i * g
    ensures e > p * i > 0.0
  {
    MulPositive(p, i);
    MulStrictlyMonotone(p * i, g - 1.0, g);
    if e <= p * i {
      MulMonotone(g - 1.0, e, p * i);
      assert false;
    }
  }

  /** From e·(g − 1) = p·i·g, g − 1 = i·s and s < n·g:
      p·(g − 1) < p·i·n·g = (e·n)·(g − 1), so e·n > p. */
  lemma RepaysPrincipal(p: real, i: real, n: real, g: real, s: real, e: real)
    requires p > 0.0 && i > 0.0 && g > 1.0
    requires e * (g - 1.0) == p * i * g
    requires i * s == g - 1.0 && s < n * g
    ensures e * n > p
  {
    MulStrictlyMonotone(i, s, n * g);
    MulStrictlyMonotone(p, g - 1.0, i * (n * g));
    assert p * (i * (n * g)) == (e * (g - 1.0)) * n;
    assert (e * (g - 1.0)) * n == (g - 1.0) * (e * n);
    if e * n <= p {
      MulMonotone(g - 1.0, e * n, p);
      assert false;
    }
  }

  /** With a single payment the borrower repays the principal plus one month's
      interest. */
  lemma LevelPaymentSingleTerm(p: real, i: real)
    requires i > 0.0
    ensures LevelPayment(p, i, 1) == p * (1.0 + i)
  {
    assert Pow(1.0 + i, 1) == 1.0 + i;
  }

  // ---------------------------------------------------------------------------
  // Monthly deposits (SIP)
  // ---------------------------------------------------------------------------

  /** The value after k monthly deposits of m, each made at the start of a
      month and growing at rate i until the end of it. */
  function Accumulated(m: real, i: real, k: nat): real
  {
    if k == 0 then 0.0 else (Accumulated(m, i, k - 1) + m) * (1.0 + i)
  }

  /** a + n months of deposits: the first n months' value keeps growing for
      a months while a months of fresh deposits accumulate beside it. */
  lemma AccumulatedSplit(m: real, i: real, a: nat, n: nat)
    ensures Accumulated(m, i, a + n) == Compounded(Accumulated(m, i, n), i, a) + Accumulated(m, i, a)
  {
    // Every product below is over these names, so that the solver never has to
    // identify two products whose factors are equal only by unfolding.
    var c := m * (1.0 + i);
    var s, sa, sn := GeomSum(1.0 + i, a + n), GeomSum(1.0 + i, a), GeomSum(1.0 + i, n);
    var g := Pow(1.0 + i, a);
    var whole, head, tail := Accumulated(m, i, a + n), Accumulated(m, i, a), Accumulated(m, i, n);
    AccumulatedFactored(m, i, a + n, c, s);
    AccumulatedFactored(m, i, a, c, sa);
    AccumulatedFactored(m, i, n, c, sn);
    GeomSumSplitFactored(1.0 + i, a, n, s, sa, sn, g);
    CompoundedFactored(tail, i, a, g);
    SplitScaled(whole, head, tail, Compounded(tail, i, a), c, s, sa, sn, g);
  }

  /** One more month of deposits. */
  lemma AccumulatedNext(m: real, i: real, k: nat)
    ensures Accumulated(m, i, k + 1) == (Accumulated(m, i, k) + m) * (1.0 + i)
  {
  }

  /** Deposits that are not negative never accumulate to a negative value. */
  lemma {:induction false} AccumulatedNonNegative(m: real, i: real, k: nat)
    requires m >= 0.0 && i >= 0.0
    ensures Accumulated(m, i, k) >= 0.0
  {
    if k > 0 {
      AccumulatedNonNegative(m, i, k - 1);
      MulNonNegative(Accumulated(m, i, k - 1) + m, 1.0 + i);
    }
  }

  /** A split geometric sum scaled by c: with S = S_a + g·S_n, c·S is c·S_a
      plus g times c·S_n. */
  lemma SplitScaled(whole: real, head: real, tail: real, grown: real, c: real,
                    s: real, sa: real, sn: real, g: real)
    requires whole == c * s && head == c * sa && tail == c * sn
    requires s == sa + g * sn && grown == tail * g
    ensures whole == grown + head
  {
    assert c * (sa + g * sn) == c * sa + (c * sn) * g;
  }

  /** The annuity-due formula m·((1+i)^n − 1)/i·(1+i). */
  function SipValue(m: real, i: real, n: nat): real
    requires i > 0.0
  {
    m * ((Pow(1.0 + i, n) - 1.0) / i) * (1.0 + i)
  }

  lemma {:induction false} AccumulatedClosedForm(m: real, i: real, k: nat)
    ensures Accumulated(m, i, k) == m * (1.0 + i) * GeomSum(1.0 + i, k)
  {
    AccumulatedFactored(m, i, k, m * (1.0 + i), GeomSum(1.0 + i, k));
  }

  /** AccumulatedClosedForm with the factor m·(1+i) and the geometric sum
      named, so that each product in the induction is over names. */
  lemma {:induction false} AccumulatedFactored(m: real, i: real, k: nat, c: real, s: real)
    requires c == m * (1.0 + i) && s == GeomSum(1.0 + i, k)
    ensures Accumulated(m, i, k) == c * s
    decreases k
  {
    if k > 0 {
      var a, a', s' := Accumulated(m, i, k), Accumulated(m, i, k - 1), GeomSum(1.0 + i, k - 1);
      AccumulatedFactored(m, i, k - 1, c, s');
      AccumulatedNextFactored(m, i, k - 1, a, a');
      GeomSumHornerFactored(1.0 + i, k - 1, s, s');
      AccumulateStep(a, a', m, i, c, s, s');
    }
  }

  /** AccumulatedNext with both values named. */
  lemma AccumulatedNextFactored(m: real, i: real, k: nat, a: real, a': real)
    requires a == Accumulated(m, i, k + 1) && a' == Accumulated(m, i, k)
    ensures a == (a' + m) * (1.0 + i)
  {
  }

  /** One month of deposits in closed form: a' = c·s' grows to c·s for
      c = m·(1+i) and s = 1 + (1+i)·s'. */
  lemma AccumulateStep(a: real, a': real, m: real, i: real, c: real, s: real, s': real)
    requires a == (a' + m) * (1.0 + i) && a' == c * s'
    requires c == m * (1.0 + i) && s == 1.0 + (1.0 + i) * s'
    ensures a == c * s
  {
    assert (c * s' + m) * (1.0 + i) == c * ((1.0 + i) * s') + m * (1.0 + i);
  }

  /** The closed-form SIP value is the month-by-month accumulation of the deposits. */
  lemma SipValueIsAccumulated(m: real, i: real, n: nat)
    requires i > 0.0
    ensures SipValue(m, i, n) == Accumulated(m, i, n)
    ensures SipValue(m, i, n) == m * (1.0 + i) * GeomSum(1.0 + i, n)
  {
    GeomSumClosedForm(1.0 + i, n);
    assert (Pow(1.0 + i, n) - 1.0) / i == GeomSum(1.0 + i, n);
    AccumulatedClosedForm(m, i, n);
  }

  /** SipValueIsAccumulated with the geometric sum named. */
  lemma SipValueFactored(m: real, i: real, n: nat, s: real)
    requires i > 0.0 && s == GeomSum(1.0 + i, n)
    ensures SipValue(m, i, n) == m * (1.0 + i) * s
  {
    SipValueIsAccumulated(m, i, n);
  }

  /** Every deposit earns at least one month's growth, so the value exceeds the
      total deposited. */
  lemma SipValueExceedsDeposits(m: real, i: real, n: nat)
    requires m > 0.0 && i > 0.0 && n >= 1
    ensures SipValue(m, i, n) > m * (n as real)
  {
    var b := 1.0 + i;
    SipValueIsAccumulated(m, i, n);
    GeomSumAtLeastCount(b, n);
    MulPositive(m, b);
    MulMonotone(m * b, n as real, GeomSum(b, n));
    MulPositive(m, n as real);
    MulStrictlyMonotone(m * (n as real), 1.0, b);
    calc {
      SipValue(m, i, n);
      m * b * GeomSum(b, n);
    >= m * b * (n as real);
      m * (n as real) * b;
    > m * (n as real) * 1.0;
    }
  }

  /** One more month of deposits gives a strictly larger value. */
  lemma SipValueIncreasing(m: real, i: real, n: nat)
    requires m > 0.0 && i > 0.0
    ensures SipValue(m, i, n) < SipValue(m, i, n + 1)
  {
    SipValueIsAccumulated(m, i, n);
    SipValueIsAccumulated(m, i, n + 1);
    AccumulatedNext(m, i, n);
    AccumulatedNonNegative(m, i, n);
    MulMonotone(Accumulated(m, i, n) + m, 1.0, 1.0 + i);
  }

  /** A single deposit grows for one month. */
  lemma SipValueSingleMonth(m: real, i: real)
    requires i > 0.0
    ensures SipValue(m, i, 1) == m * (1.0 + i)
  {
    assert Pow(1.0 + i, 1) == 1.0 + i;
  }

  // ---------------------------------------------------------------------------
  // Compound growth of a single sum
  // ---------------------------------------------------------------------------

  /** p grown for n periods at rate x per period: p·(1+x)^n. */
  function Compounded(p: real, x: real, n: nat): real
  {
    p * Pow(1.0 + x, n)
  }

  /** Compounded with the growth factor (1+x)^n named. */
  lemma CompoundedFactored(p: real, x: real, n: nat, g: real)
    requires g == Pow(1.0 + x, n)
    ensures Compounded(p, x, n) == p * g
  {
  }

  /** A larger sum grown for one more period ends strictly larger. */
  lemma CompoundedIncreasing(p: real, q: real, x: real, n: nat)
    requires 0.0 <= p < q && x > 0.0
    ensures Compounded(p, x, n) < Compounded(q, x, n + 1)
  {
    PowStrictlyIncreasing(1.0 + x, n, n + 1);
    PowPositive(1.0 + x, n);
    MulMonotone(p, Pow(1.0 + x, n), Pow(1.0 + x, n + 1));
    MulStrictlyMonotone(Pow(1.0 + x, n + 1), p, q);
  }

  /** Compound growth earns at least simple interest (Bernoulli's inequality),
      and so strictly more than nothing. */
  lemma CompoundedGrowth(p: real, x: real, n: nat)
    requires p > 0.0 && x > 0.0 && n >= 1
    ensures Compounded(p, x, n) >= p * (1.0 + (n as real) * x)
    ensures p * (1.0 + (n as real) * x) > p
  {
    Bernoulli(x, n);
    MulMonotone(p, 1.0 + (n as real) * x, Pow(1.0 + x, n));
    MulPositive(n as real, x);
    MulStrictlyMonotone(p, 1.0, 1.0 + (n as real) * x);
  }

  // ---------------------------------------------------------------------------
  // Loan totals
  // ---------------------------------------------------------------------------

  /** The record the loan-details calculators return. */
  datatype LoanTotals = LoanTotals(totalPayment: real, totalInterest: real)

  /** The loan-details computation: the (already rounded) instalment times the
      number of payments, and that product less the principal, each rounded
      separately. The two fields differ by the principal to within a cent. */
  function Totals(instalment: real, payments: nat, principal: real): (t: LoanTotals)
    ensures -0.01 <= t.totalPayment - t.totalInterest - principal <= 0.01
  {
    var totalPayment := instalment * payments as real;
    var totalInterest := totalPayment - principal;
    Round2Error(totalPayment);
    Round2Error(totalInterest);
    LoanTotals(Round2(totalPayment), Round2(totalInterest))
  }
}

=== FILE: bmi.dfy ===
/** Body mass index and its category (src/calculations/fitness/bmi.ts). */
module Bmi {
  import opened Results
  import opened Numeric

  datatype BmiCategory = Underweight | NormalWeight | Overweight | Obesity

  /** The label the calculator reports for each category. */
  function Label(c: BmiCategory): string
  {
    match c
    case Underweight => "Underweight"
    case NormalWeight => "Normal weight"
    case Overweight => "Overweight"
    case Obesity => "Obesity"
  }

  /** Position of a category from thinnest to heaviest. */
  function Rank(c: BmiCategory): nat
  {
    match c
    case Underweight => 0
    case NormalWeight => 1
    case Overweight => 2
    case Obesity => 3
  }

  datatype BmiReport = BmiReport(bmi: real, category: BmiCategory)

  /** The category ladder as written: the upper bounds 24.9 and 29.9 leave
      the rounded values from 24.9 up to 25 to the final `else`. */
  function CategorizeAsWritten(roundedBmi: real): BmiCategory
  {
    if roundedBmi < 18.5 then Underweight
    else if roundedBmi >= 18.5 && roundedBmi < 24.9 then NormalWeight
    else if roundedBmi >= 25.0 && roundedBmi < 29.9 then Overweight
    else Obesity
  }

  /** `calculateBMI(weight, height)` as written: rejects a non-positive
      weight or height, rounds weight/height² to cents and categorises the
      rounded value. */
  function CalculateBmiAsWritten(weight: real, height: real): (r: Result<BmiReport>)
    ensures r.Ok? <==> weight > 0.0 && height > 0.0
    ensures r.Ok? ==>
      && r.value.bmi == Round2(weight / (height * height))
      && r.value.category == CategorizeAsWritten(r.value.bmi)
  {
    if weight <= 0.0 || height <= 0.0 then Err(InvalidArgument)
    else
      var roundedBmi := Round2(weight / (height * height));
      Ok(BmiReport(roundedBmi, CategorizeAsWritten(roundedBmi)))
  }

  /** Which values land in which category under the written ladder, in both
      directions: obesity also takes the band [24.9, 25) between normal and
      overweight. */
  lemma AsWrittenBands(x: real)
    ensures CategorizeAsWritten(x) == Underweight <==> x < 18.5
    ensures CategorizeAsWritten(x) == NormalWeight <==> 18.5 <= x < 24.9
    ensures CategorizeAsWritten(x) == Overweight <==> 25.0 <= x < 29.9
    ensures CategorizeAsWritten(x) == Obesity <==> (24.9 <= x < 25.0 || x >= 29.9)
  {
  }

  /** A weight of 24.95 kg at a height of 1 m is reported as obese, while
      25 kg at the same height is reported as overweight: more weight, a
      lighter category. */
  lemma AsWrittenGap()
    ensures CalculateBmiAsWritten(24.95, 1.0) == Ok(BmiReport(24.95, Obesity))
    ensures CalculateBmiAsWritten(25.0, 1.0) == Ok(BmiReport(25.0, Overweight))
    ensures Rank(CalculateBmiAsWritten(24.95, 1.0).value.category)
          > Rank(CalculateBmiAsWritten(25.0, 1.0).value.category)
  {
    Round2OfCents(2495);
    assert 2495 as real / 100.0 == 24.95;
    Round2OfCents(2500);
    assert 2500 as real / 100.0 == 25.0;
  }

  /** The ladder with contiguous bands: normal below 25, overweight below 30. */
  function Categorize(roundedBmi: real): BmiCategory
  {
    if roundedBmi < 18.5 then Underweight
    else if roundedBmi < 25.0 then NormalWeight
    else if roundedBmi < 30.0 then Overweight
    else Obesity
  }

  /** `calculateBMI` with the contiguous ladder. */
  function CalculateBmi(weight: real, height: real): (r: Result<BmiReport>)
    ensures r.Ok? <==> weight > 0.0 && height > 0.0
    ensures r.Ok? ==>
      && r.value.bmi == Round2(weight / (height * height))
      && r.value.category == Categorize(r.value.bmi)
  {
    if weight <= 0.0 || height <= 0.0 then Err(InvalidArgument)
    else
      var roundedBmi := Round2(weight / (height * height));
      Ok(BmiReport(roundedBmi, Categorize(roundedBmi)))
  }

  /** Each category is one interval, in both directions, and the four
      intervals cover the line without gaps. */
  lemma Bands(x: real)
    ensures Categorize(x) == Underweight <==> x < 18.5
    ensures Categorize(x) == NormalWeight <==> 18.5 <= x < 25.0
    ensures Categorize(x) == Overweight <==> 25.0 <= x < 30.0
    ensures Categorize(x) == Obesity <==> x >= 30.0
  {
  }

  /** A larger index never gets a lighter category. */
  lemma CategorizeMonotone(x: real, y: real)
    requires x <= y
    ensures Rank(Categorize(x)) <= Rank(Categorize(y))
  {
  }

  /** More weight at the same height never gets a lighter category. */
  lemma CalculateBmiMonotoneInWeight(w1: real, w2: real, height: real)
    requires 0.0 < w1 <= w2 && height > 0.0
    ensures Rank(CalculateBmi(w1, height).value.category) <= Rank(CalculateBmi(w2, height).value.category)
  {
    MulPositive(height, height);
    DivideMonotone(w1, w2, height * height);
    Round2Monotone(w1 / (height * height), w2 / (height * height));
    CategorizeMonotone(Round2(w1 / (height * height)), Round2(w2 / (height * height)));
  }

  /** 70 kg at 1.75 m: index 22.86, normal weight. */
  lemma Example()
    ensures CalculateBmi(70.0, 1.75) == Ok(BmiReport(22.86, NormalWeight))
    ensures CalculateBmiAsWritten(70.0, 1.75) == Ok(BmiReport(22.86, NormalWeight))
  {
    var a := 70.0 / (1.75 * 1.75);
    assert 2286.0 <= a * 100.0 + 0.5 < 2287.0;
    assert (a * 100.0 + 0.5).Floor == 2286;
    assert Round2(a) == 22.86;
  }
}

=== FILE: bmr.dfy ===
/** Basal metabolic rate by the Mifflin-St Jeor equation
    (src/calculations/fitness/bmr.ts). */
module Bmr {
  import opened Results
  import opened Numeric

  /** The two accepted genders; any other string is rejected by the source,
      which a closed type makes impossible to pass. */
  datatype Gender = Male | Female

  /** The constant term that distinguishes the two equations. */
  function GenderOffset(gender: Gender): real
  {
    match gender
    case Male => 5.0
    case Female => -161.0
  }

  /** 10·weight + 6.25·height − 5·age plus the gender's constant, for weight
      in kilograms, height in centimetres and age in years. */
  function BmrUnrounded(weight: real, height: real, age: real, gender: Gender): real
  {
    10.0 * weight + 6.25 * height - 5.0 * age + GenderOffset(gender)
  }

  /** `BMR(weight, height, age, gender)`: rejects a non-positive weight,
      height or age, otherwise the rate rounded to cents. */
  function CalculateBmr(weight: real, height: real, age: real, gender: Gender): (r: Result<real>)
    ensures r.Ok? <==> weight > 0.0 && height > 0.0 && age > 0.0
    ensures r.Ok? ==> r.value == Round2(BmrUnrounded(weight, height, age, gender))
    ensures r.Ok? && gender == Male ==> r.value == Round2(10.0 * weight + 6.25 * height - 5.0 * age + 5.0)
    ensures r.Ok? && gender == Female ==> r.value == Round2(10.0 * weight + 6.25 * height - 5.0 * age - 161.0)
  {
    if weight <= 0.0 || height <= 0.0 || age <= 0.0 then Err(InvalidArgument)
    else Ok(Round2(BmrUnrounded(weight, height, age, gender)))
  }

  /** For the same body the male equation gives 166 more than the female one. */
  lemma MaleMinusFemale(weight: real, height: real, age: real)
    ensures BmrUnrounded(weight, height, age, Male) - BmrUnrounded(weight, height, age, Female) == 166.0
  {
  }

  /** The rate rises with weight and height and falls with age, before
      rounding strictly and after rounding weakly. */
  lemma BmrMonotone(w1: real, w2: real, h1: real, h2: real, a1: real, a2: real, gender: Gender)
    requires w1 <= w2 && h1 <= h2 && a1 >= a2
    ensures BmrUnrounded(w1, h1, a1, gender) <= BmrUnrounded(w2, h2, a2, gender)
    ensures (w1 < w2 || h1 < h2 || a1 > a2) ==> BmrUnrounded(w1, h1, a1, gender) < BmrUnrounded(w2, h2, a2, gender)
    ensures Round2(BmrUnrounded(w1, h1, a1, gender)) <= Round2(BmrUnrounded(w2, h2, a2, gender))
  {
    Round2Monotone(BmrUnrounded(w1, h1, a1, gender), BmrUnrounded(w2, h2, a2, gender));
  }
}

=== FILE: calories.dfy ===
/** Total daily energy expenditure and its category
    (src/calculations/fitness/calories.ts). */
module Calories {
  import opened Results
  import opened Numeric
  import Bmr

  datatype ActivityLevel = Sedentary | Light | Moderate | Active | VeryActive

  /** The activity multiplier table. */
  function Multiplier(level: ActivityLevel): real
  {
    match level
    case Sedentary => 1.2
    case Light => 1.375
    case Moderate => 1.55
    case Active => 1.725
    case VeryActive => 1.9
  }

  /** Position of a level from least to most active. */
  function Rank(level: ActivityLevel): nat
  {
    match level
    case Sedentary => 0
    case Light => 1
    case Moderate => 2
    case Active => 3
    case VeryActive => 4
  }

  datatype CaloricNeeds = Low | ModerateNeeds | High

  function Label(c: CaloricNeeds): string
  {
    match c
    case Low => "Low caloric needs"
    case ModerateNeeds => "Moderate caloric needs"
    case High => "High caloric needs"
  }

  function Categorize(roundedTdee: real): CaloricNeeds
  {
    if roundedTdee < 1800.0 then Low
    else if roundedTdee >= 1800.0 && roundedTdee < 2500.0 then ModerateNeeds
    else High
  }

  datatype CaloriesReport = CaloriesReport(tdee: real, category: CaloricNeeds)

  /** `calculateCalories(weight, height, age, gender, activityLevel)` with the
      rate computed by the `BMR` export: rejects a non-positive weight,
      height or age; otherwise the rounded rate times the level's multiplier,
      rounded again, and its category. */
  function CalculateCalories(weight: real, height: real, age: real, gender: Bmr.Gender, activityLevel: ActivityLevel)
    : (r: Result<CaloriesReport>)
    ensures r.Ok? <==> weight > 0.0 && height > 0.0 && age > 0.0
    ensures r.Ok? ==>
      && Bmr.CalculateBmr(weight, height, age, gender).Ok?
      && r.value.tdee == Round2(Bmr.CalculateBmr(weight, height, age, gender).value * Multiplier(activityLevel))
      && r.value.category == Categorize(r.value.tdee)
  {
    if weight <= 0.0 || height <= 0.0 || age <= 0.0 then Err(InvalidArgument)
    else
      // The guard above is the one BMR applies, so the call cannot fail here.
      var bmr := Bmr.CalculateBmr(weight, height, age, gender).value;
      var roundedTdee := Round2(bmr * Multiplier(activityLevel));
      Ok(CaloriesReport(roundedTdee, Categorize(roundedTdee)))
  }

  /** The multipliers strictly increase with the activity level. */
  lemma MultiplierIncreasing(a: ActivityLevel, b: ActivityLevel)
    requires Rank(a) < Rank(b)
    ensures Multiplier(a) < Multiplier(b)
  {
  }

  /** For a positive rate a more active level never reports less, and before
      rounding reports strictly more. */
  lemma TdeeIncreasingInActivity(bmr: real, a: ActivityLevel, b: ActivityLevel)
    requires bmr > 0.0 && Rank(a) < Rank(b)
    ensures bmr * Multiplier(a) < bmr * Multiplier(b)
    ensures Round2(bmr * Multiplier(a)) <= Round2(bmr * Multiplier(b))
  {
    MultiplierIncreasing(a, b);
    MulStrictlyMonotone(bmr, Multiplier(a), Multiplier(b));
    Round2Monotone(bmr * Multiplier(a), bmr * Multiplier(b));
  }

  /** The three categories are the intervals below 1800, from 1800 to 2500
      and from 2500 up, in both directions, leaving no gap. */
  lemma Bands(x: real)
    ensures Categorize(x) == Low <==> x < 1800.0
    ensures Categorize(x) == ModerateNeeds <==> 1800.0 <= x < 2500.0
    ensures Categorize(x) == High <==> x >= 2500.0
  {
  }

  /** The file as written imports the name `calculateBMR`, which bmr.ts does
      not export (its export is `BMR`); the imported binding is undefined, so
      once the guard passes the call throws a TypeError. */
  function CalculateCaloriesAsWritten(weight: real, height: real, age: real, gender: Bmr.Gender,
                                      activityLevel: ActivityLevel): (r: Result<CaloriesReport>)
    ensures r.Err?
    ensures r.error == InvalidArgument <==> !(weight > 0.0 && height > 0.0 && age > 0.0)
  {
    if weight <= 0.0 || height <= 0.0 || age <= 0.0 then Err(InvalidArgument)
    else Err(NotAFunction)
  }

  /** As written the calculator never yields a report: every input that
      the corrected calculator accepts fails instead. */
  lemma AsWrittenNeverReports(weight: real, height: real, age: real, gender: Bmr.Gender, activityLevel: ActivityLevel)
    ensures CalculateCalories(weight, height, age, gender, activityLevel).Ok?
        <==> CalculateCaloriesAsWritten(weight, height, age, gender, activityLevel).error == NotAFunction
  {
  }
}

=== FILE: compound_interest.dfy ===
/** Compound interest (src/calculations/investment/compoundInterest.ts). */
module CompoundInterest {
  import opened Results
  import opened Numeric
  import Annuity
  import SimpleInterest

  /** The amount P·(1 + r/100/t)^(t·years) after compounding t times a year.
      The period counts are whole numbers. */
  function CompoundAmount(principal: real, rate: real, timesCompounded: nat, years: nat): real
    requires timesCompounded > 0
  {
    Annuity.Compounded(principal, rate / 100.0 / (timesCompounded as real), timesCompounded * years)
  }

  /** `calculateCompoundInterest(principal, rate, timesCompounded, years)`:
      rejects any argument that is not positive, otherwise the interest
      alone (amount less principal), rounded to cents. The unrounded interest
      is at least the simple interest over the same years, and positive. */
  function CalculateCompoundInterest(principal: real, rate: real, timesCompounded: nat, years: nat): (r: Result<real>)
    ensures r.Ok? <==> principal > 0.0 && rate > 0.0 && timesCompounded > 0 && years > 0
    ensures r.Ok? ==>
      && r.value == Round2(CompoundAmount(principal, rate, timesCompounded, years) - principal)
      && CompoundAmount(principal, rate, timesCompounded, years) - principal
           >= SimpleInterest.Interest(principal, rate, years as real)
      && SimpleInterest.Interest(principal, rate, years as real) > 0.0
  {
    if principal <= 0.0 || rate <= 0.0 || timesCompounded <= 0 || years <= 0 then Err(InvalidArgument)
    else
      CompoundBeatsSimple(principal, rate, timesCompounded, years);
      Ok(Round2(CompoundAmount(principal, rate, timesCompounded, years) - principal))
  }

  /** Bernoulli's inequality: compounding earns at least simple interest. */
  lemma CompoundBeatsSimple(principal: real, rate: real, timesCompounded: nat, years: nat)
    requires principal > 0.0 && rate > 0.0 && timesCompounded > 0 && years > 0
    ensures CompoundAmount(principal, rate, timesCompounded, years) - principal
         >= SimpleInterest.Interest(principal, rate, years as real)
    ensures SimpleInterest.Interest(principal, rate, years as real) > 0.0
  {
    var x := rate / 100.0 / (timesCompounded as real);
    assert timesCompounded * years >= 1 by {
      assert timesCompounded * years >= 1 * years;
    }
    Annuity.CompoundedGrowth(principal, x, timesCompounded * years);
    GrowthIsSimple(principal, rate, timesCompounded, years);
    MulPositive(principal, rate);
    MulPositive(principal * rate, years as real);
  }

  /** The simple-interest part of the Bernoulli bound: n·x with n = t·years
      periods at x = r/100/t each is r·years/100. */
  lemma GrowthIsSimple(principal: real, rate: real, timesCompounded: nat, years: nat)
    requires timesCompounded > 0
    ensures principal * (1.0 + ((timesCompounded * years) as real) * (rate / 100.0 / (timesCompounded as real)))
            - principal
         == SimpleInterest.Interest(principal, rate, years as real)
  {
    var t := timesCompounded as real;
    var y := years as real;
    assert ((timesCompounded * years) as real) == t * y;
    assert rate / 100.0 / t * t == rate / 100.0;
    assert t * y * (rate / 100.0 / t) == y * (rate / 100.0);
  }

  /** One year compounded once is one year of simple interest. */
  lemma SingleAnnualPeriod(principal: real, rate: real)
    requires principal > 0.0 && rate > 0.0
    ensures CalculateCompoundInterest(principal, rate, 1, 1) == Ok(Round2(principal * rate / 100.0))
  {
    assert Pow(1.0 + rate / 100.0 / 1.0, 1) == 1.0 + rate / 100.0;
    assert CompoundAmount(principal, rate, 1, 1) - principal == principal * rate / 100.0;
  }
}

=== FILE: convert_weight.dfy ===
/** Conversion between kilograms and pounds (src/calculations/fitness/convertWeight.ts). */
module ConvertWeight {
  import opened Results
  import opened Numeric

  /** The unit tag. `Lb` multiplies by the factor, `Kg` divides by it: the tag
      names the unit converted to. */
  datatype WeightUnit = Kg | Lb

  const PoundsPerKilogram: real := 2.20462

  /** The converted weight before rounding. */
  function Converted(weight: real, unit: WeightUnit): real
  {
    match unit
    case Lb => weight * PoundsPerKilogram
    case Kg => weight / PoundsPerKilogram
  }

  /** `convertWeight(weight, unit)`: rejects a non-positive weight;
      otherwise the converted weight rounded to cents. Pounds come out
      larger than the input and kilograms smaller, before rounding. */
  function ConvertWeight(weight: real, unit: WeightUnit): (r: Result<real>)
    ensures r.Ok? <==> weight > 0.0
    ensures r.Ok? ==>
      && r.value == Round2(Converted(weight, unit))
      && (unit == Lb ==> Converted(weight, unit) > weight)
      && (unit == Kg ==> 0.0 < Converted(weight, unit) < weight)
  {
    if weight <= 0.0 then Err(InvalidArgument)
    else Ok(Round2(Converted(weight, unit)))
  }

  /** Before rounding, converting to pounds and back to kilograms (or the
      other way round) returns the original weight. */
  lemma RoundTrip(weight: real)
    ensures Converted(Converted(weight, Lb), Kg) == weight
    ensures Converted(Converted(weight, Kg), Lb) == weight
  {
  }

  /** The rounded round trip is off by at most the two roundings, the first
      scaled by the conversion. Pounds then kilograms: within 0.008 of the
      weight. Kilograms then pounds: within 0.0161, because the first half cent
      is multiplied by 2.20462. */
  lemma RoundedRoundTrip(weight: real)
    requires weight > 0.0
    ensures weight - 0.008 <= Round2(Converted(ConvertWeight(weight, Lb).value, Kg)) <= weight + 0.008
    ensures weight - 0.0161 <= Round2(Converted(ConvertWeight(weight, Kg).value, Lb)) <= weight + 0.0161
  {
    var lb := Round2(Converted(weight, Lb));
    Round2Error(Converted(weight, Lb));
    Round2Error(Converted(lb, Kg));
    assert Converted(lb, Kg) - weight == (lb - weight * PoundsPerKilogram) / PoundsPerKilogram;
    var kg := Round2(Converted(weight, Kg));
    Round2Error(Converted(weight, Kg));
    Round2Error(Converted(kg, Lb));
    assert Converted(kg, Lb) - weight == (kg - weight / PoundsPerKilogram) * PoundsPerKilogram;
  }

  /** Kilograms then pounds can miss by more than 0.008: 2.20462·1.005 lb is
      1.005 kg, reported as 1.01, which converts back to 2.23. */
  lemma KilogramsFirstExceedsPoundsFirstBound()
    ensures var w := 2.20462 * 1.005;
      Round2(Converted(ConvertWeight(w, Kg).value, Lb)) - w > 0.008
  {
    var w := 2.20462 * 1.005;
    assert Converted(w, Kg) == 1.005;
    assert (1.005 * 100.0 + 0.5).Floor == 101;
    assert Round2(1.005) == 1.01;
    assert Converted(1.01, Lb) == 2.2266662;
    assert (2.2266662 * 100.0 + 0.5).Floor == 223;
    assert Round2(2.2266662) == 2.23;
  }
}

=== FILE: deposit_calculators.dfy ===
/** Fixed and recurring deposits (src/calculations/investment/depositCalculators.ts). */
module DepositCalculators {
  import opened Results
  import opened Numeric
  import Annuity
  import CompoundInterest
  import InvestmentCalculators

  // ---------------------------------------------------------------------------
  // calculateFD
  // ---------------------------------------------------------------------------

  /** The unrounded maturity P·(1 + r/100/f)^(years·f). */
  function FdMaturity(principal: real, annualInterestRate: real, totalYears: nat, compoundingFrequency: nat): real
    requires compoundingFrequency > 0
  {
    Annuity.Compounded(principal, annualInterestRate / 100.0 / (compoundingFrequency as real),
                       totalYears * compoundingFrequency)
  }

  /** `calculateFD(principal, annualInterestRate, totalYears,
      compoundingFrequency = 1)`: rejects any argument that is not positive,
      otherwise the rounded maturity, which before rounding exceeds the
      principal. */
  function CalculateFd(principal: real, annualInterestRate: real, totalYears: nat,
                       compoundingFrequency: nat := 1): (r: Result<real>)
    ensures r.Ok? <==>
      principal > 0.0 && annualInterestRate > 0.0 && totalYears > 0 && compoundingFrequency > 0
    ensures r.Ok? ==>
      && r.value == Round2(FdMaturity(principal, annualInterestRate, totalYears, compoundingFrequency))
      && FdMaturity(principal, annualInterestRate, totalYears, compoundingFrequency) > principal
  {
    if principal <= 0.0 || annualInterestRate <= 0.0 || totalYears <= 0 || compoundingFrequency <= 0 then
      Err(InvalidArgument)
    else
      FdInterestIsCompoundInterest(principal, annualInterestRate, totalYears, compoundingFrequency);
      Ok(Round2(FdMaturity(principal, annualInterestRate, totalYears, compoundingFrequency)))
  }

  /** The deposit grows by exactly the compound interest on it: the
      unrounded maturity less the principal is the unrounded compound
      interest over the same years and compounding frequency, which is
      positive. */
  lemma FdInterestIsCompoundInterest(principal: real, annualInterestRate: real, totalYears: nat,
                                     compoundingFrequency: nat)
    requires principal > 0.0 && annualInterestRate > 0.0 && totalYears > 0 && compoundingFrequency > 0
    ensures FdMaturity(principal, annualInterestRate, totalYears, compoundingFrequency) - principal
         == CompoundInterest.CompoundAmount(principal, annualInterestRate, compoundingFrequency, totalYears)
            - principal
    ensures FdMaturity(principal, annualInterestRate, totalYears, compoundingFrequency) > principal
  {
    assert totalYears * compoundingFrequency == compoundingFrequency * totalYears;
    CompoundInterest.CompoundBeatsSimple(principal, annualInterestRate, compoundingFrequency, totalYears);
  }

  /** With the default yearly compounding a fixed deposit is a lumpsum
      investment. */
  lemma FdAnnualIsLumpsum(principal: real, annualInterestRate: real, totalYears: nat)
    ensures CalculateFd(principal, annualInterestRate, totalYears)
         == InvestmentCalculators.CalculateLumpsum(principal, annualInterestRate, totalYears)
  {
    assert annualInterestRate / 100.0 / (1 as real) == annualInterestRate / 100.0;
    assert totalYears * 1 == totalYears;
  }

  // ---------------------------------------------------------------------------
  // calculateRD
  // ---------------------------------------------------------------------------

  /** c is the real cube root of b. Deposit j months before maturity earns
      `Math.pow(1 + q, j/3)` for the quarterly rate q, which for a positive
      base is c^j with c the cube root of 1 + q; the model takes c as given. */
  predicate IsCubeRoot(c: real, b: real)
  {
    c > 0.0 && c * c * c == b
  }

  /** The deposit made in month i (1-based) of n: m·c^(n − i). */
  function RdTerm(monthlyInvestment: real, monthlyFactor: real, months: nat, i: nat): real
    requires 1 <= i <= months
  {
    monthlyInvestment * Pow(monthlyFactor, months - i)
  }

  /** What the loop has added after its first k passes. */
  function RdSum(monthlyInvestment: real, monthlyFactor: real, months: nat, k: nat): real
    requires k <= months
  {
    if k == 0 then 0.0
    else RdSum(monthlyInvestment, monthlyFactor, months, k - 1) + RdTerm(monthlyInvestment, monthlyFactor, months, k)
  }

  /** The closed form m·(1 + c + ... + c^(n−1)) of the n deposits. */
  function RdClosedForm(monthlyInvestment: real, monthlyFactor: real, months: nat): real
  {
    monthlyInvestment * GeomSum(monthlyFactor, months)
  }

  /** The number of monthly deposits: three for each of the 4·years quarters. */
  function RdMonths(totalYears: nat): nat
  {
    totalYears * 4 * 3
  }

  predicate RdArgumentsValid(monthlyInvestment: real, annualInterestRate: real, totalYears: nat)
  {
    monthlyInvestment > 0.0 && annualInterestRate > 0.0 && totalYears > 0
  }

  /** `calculateRD(monthlyInvestment, annualInterestRate, totalYears)`, given
      the monthly factor (1 + r/400)^(1/3). The rounded sum of the 12·years
      deposits equals m·(1 + c + ... + c^(n−1)) and is at least the money
      deposited. */
  function CalculateRd(monthlyInvestment: real, annualInterestRate: real, totalYears: nat, monthlyFactor: real)
    : (r: Result<real>)
    requires annualInterestRate > 0.0 ==> IsCubeRoot(monthlyFactor, 1.0 + annualInterestRate / 4.0 / 100.0)
    ensures r.Ok? <==> RdArgumentsValid(monthlyInvestment, annualInterestRate, totalYears)
    ensures r.Ok? ==>
      && RdMonths(totalYears) == 12 * totalYears
      && r.value == Round2(RdClosedForm(monthlyInvestment, monthlyFactor, RdMonths(totalYears)))
      && RdClosedForm(monthlyInvestment, monthlyFactor, RdMonths(totalYears))
           >= (RdMonths(totalYears) as real) * monthlyInvestment
  {
    if !RdArgumentsValid(monthlyInvestment, annualInterestRate, totalYears) then Err(InvalidArgument)
    else
      RdSumClosedForm(monthlyInvestment, monthlyFactor, RdMonths(totalYears));
      CubeRootAboveOne(monthlyFactor, 1.0 + annualInterestRate / 4.0 / 100.0);
      RdAtLeastDeposits(monthlyInvestment, monthlyFactor, RdMonths(totalYears));
      Ok(Round2(RdSum(monthlyInvestment, monthlyFactor, RdMonths(totalYears), RdMonths(totalYears))))
  }

  /** The source's `for` loop over the months. */
  method RdLoop(monthlyInvestment: real, annualInterestRate: real, totalYears: nat, monthlyFactor: real)
    returns (r: Result<real>)
    requires annualInterestRate > 0.0 ==> IsCubeRoot(monthlyFactor, 1.0 + annualInterestRate / 4.0 / 100.0)
    ensures r == CalculateRd(monthlyInvestment, annualInterestRate, totalYears, monthlyFactor)
  {
    if !RdArgumentsValid(monthlyInvestment, annualInterestRate, totalYears) {
      return Err(InvalidArgument);
    }
    var totalQuarters := totalYears * 4;
    var maturityAmount := 0.0;
    var i := 1;
    while i <= totalQuarters * 3
      invariant 1 <= i <= totalQuarters * 3 + 1
      invariant maturityAmount == RdSum(monthlyInvestment, monthlyFactor, totalQuarters * 3, i - 1)
    {
      RdSumNext(monthlyInvestment, monthlyFactor, totalQuarters * 3, i, Pow(monthlyFactor, totalQuarters * 3 - i));
      maturityAmount := maturityAmount + monthlyInvestment * Pow(monthlyFactor, totalQuarters * 3 - i);
      i := i + 1;
    }
    return Ok(Round2(maturityAmount));
  }

  /** Pass k of the loop adds the deposit of month k, m·c^(n − k). */
  lemma RdSumNext(m: real, c: real, n: nat, k: nat, q: real)
    requires 1 <= k <= n && q == Pow(c, n - k)
    ensures RdSum(m, c, n, k) == RdSum(m, c, n, k - 1) + m * q
  {
  }

  /** The loop's total r after k passes, plus m times the geometric sum s of
      the n − k exponents still to come, is m times the whole geometric sum t.
      The sums are named so that each product in the induction is over names. */
  lemma {:induction false} RdSumPartial(m: real, c: real, n: nat, k: nat, r: real, s: real, t: real)
    requires k <= n
    requires r == RdSum(m, c, n, k) && s == GeomSum(c, n - k) && t == GeomSum(c, n)
    ensures r + m * s == m * t
    decreases k
  {
    if k > 0 {
      var r', s', q := RdSum(m, c, n, k - 1), GeomSum(c, n - (k - 1)), Pow(c, n - k);
      RdSumPartial(m, c, n, k - 1, r', s', t);
      RdSumNext(m, c, n, k, q);
      assert n - (k - 1) == (n - k) + 1;
      GeomSumNext(c, n - k);
      RdStep(r, r', m, q, s, s', t);
    }
  }

  /** One pass in closed form: moving the term m·q from the sum still to come
      into the loop's total keeps the whole unchanged. */
  lemma RdStep(r: real, r': real, m: real, q: real, s: real, s': real, t: real)
    requires r == r' + m * q && s' == s + q && r' + m * s' == m * t
    ensures r + m * s == m * t
  {
    assert m * s' == m * s + m * q;
  }

  lemma RdSumClosedForm(m: real, c: real, n: nat)
    ensures RdSum(m, c, n, n) == RdClosedForm(m, c, n)
  {
    RdSumPartial(m, c, n, n, RdSum(m, c, n, n), 0.0, GeomSum(c, n));
  }

  /** A positive cube root of a number above 1 is itself above 1. */
  lemma CubeRootAboveOne(c: real, b: real)
    requires IsCubeRoot(c, b) && b > 1.0
    ensures c > 1.0
  {
    CubeAtMostOne(c);
  }

  lemma CubeAtMostOne(c: real)
    requires c > 0.0
    ensures c <= 1.0 ==> c * c * c <= 1.0
  {
    if c <= 1.0 {
      MulMonotone(c, c, 1.0);
      assert c * c <= c;
      MulMonotone(c * c, c, 1.0);
      assert c * c * c <= c * c;
    }
  }

  lemma PowCube(c: real)
    ensures Pow(c, 3) == c * c * c
  {
    assert Pow(c, 1) == c;
    assert Pow(c, 2) == c * c;
  }

  /** c^3k is b^k: on whole exponents the cube-root powers are `Math.pow`. */
  lemma {:induction false} CubeRootPowers(c: real, b: real, k: nat)
    requires IsCubeRoot(c, b)
    ensures Pow(c, 3 * k) == Pow(b, k)
  {
    if k > 0 {
      // Every product below is over names (see Annuity.AccumulatedSplit).
      var t, pk, pb := Pow(c, 3 * k), Pow(b, k - 1), Pow(b, k);
      CubeRootPowers(c, b, k - 1);
      PowCube(c);
      assert 3 + 3 * (k - 1) == 3 * k;
      PowAddFactored(c, 3, 3 * (k - 1), t, b, pk);
      PowNextFactored(b, k - 1, pb, pk);
    }
  }

  /** Every deposit earns at least its own amount, so the total is at least
      the n deposits made. */
  lemma RdAtLeastDeposits(m: real, c: real, n: nat)
    requires m > 0.0 && c >= 1.0
    ensures RdClosedForm(m, c, n) >= (n as real) * m
  {
    GeomSumAtLeastCount(c, n);
    MulMonotone(m, n as real, GeomSum(c, n));
  }

  /** An earlier deposit earns for longer, so it contributes at least as much
      as any later one; the last deposit contributes exactly its amount. */
  lemma RdTermsNonIncreasing(m: real, c: real, n: nat, i: nat, j: nat)
    requires m > 0.0 && c > 1.0 && 1 <= i <= j <= n
    ensures RdTerm(m, c, n, i) >= RdTerm(m, c, n, j)
    ensures RdTerm(m, c, n, n) == m
  {
    if i < j {
      PowStrictlyIncreasing(c, n - j, n - i);
      MulMonotone(m, Pow(c, n - j), Pow(c, n - i));
    }
  }
}

=== FILE: dividend_yield.dfy ===
/** Dividend yield (src/calculations/financialRatios/dividendYield.ts). */
module DividendYield {
  import opened Results
  import opened Numeric

  /** The unrounded yearly dividends as a percentage of the price. */
  function YieldPercent(annualDividends: real, stockPrice: real): real
    requires stockPrice != 0.0
  {
    (annualDividends / stockPrice) * 100.0
  }

  /** `calculateDividendYield(annualDividends, stockPrice)`: rejects negative
      dividends or a non-positive price; otherwise the rounded percentage,
      never negative. */
  function CalculateDividendYield(annualDividends: real, stockPrice: real): (r: Result<real>)
    ensures r.Ok? <==> annualDividends >= 0.0 && stockPrice > 0.0
    ensures r.Ok? ==>
      && r.value == Round2(YieldPercent(annualDividends, stockPrice))
      && YieldPercent(annualDividends, stockPrice) >= 0.0
      && r.value >= 0.0
  {
    if annualDividends < 0.0 || stockPrice <= 0.0 then Err(InvalidArgument)
    else
      Round2Sign(YieldPercent(annualDividends, stockPrice));
      Ok(Round2(YieldPercent(annualDividends, stockPrice)))
  }

  /** The percentage recovers the dividends: d = yield·price/100. */
  lemma YieldRoundTrip(annualDividends: real, stockPrice: real)
    requires stockPrice > 0.0
    ensures YieldPercent(annualDividends, stockPrice) * stockPrice / 100.0 == annualDividends
  {
  }

  /** No dividends yield 0; dividends equal to the price yield 100. */
  lemma YieldLandmarks(stockPrice: real)
    requires stockPrice > 0.0
    ensures CalculateDividendYield(0.0, stockPrice) == Ok(0.0)
    ensures CalculateDividendYield(stockPrice, stockPrice) == Ok(100.0)
  {
    Round2Sign(0.0);
    Round2OfCents(10000);
    assert 10000 as real / 100.0 == 100.0;
    assert YieldPercent(stockPrice, stockPrice) == 100.0;
  }

  /** More dividends never lower the yield, and a higher price never raises it. */
  lemma YieldMonotone(d1: real, d2: real, p1: real, p2: real)
    requires 0.0 <= d1 <= d2 && 0.0 < p1 <= p2
    ensures CalculateDividendYield(d1, p1).value <= CalculateDividendYield(d2, p1).value
    ensures CalculateDividendYield(d1, p2).value <= CalculateDividendYield(d1, p1).value
  {
    assert d1 / p1 <= d2 / p1;
    DivideByLarger(d1, p1, p2);
    Round2Monotone(YieldPercent(d1, p1), YieldPercent(d2, p1));
    Round2Monotone(YieldPercent(d1, p2), YieldPercent(d1, p1));
  }
}

=== FILE: dti.dfy ===
/** Debt-to-income ratio (src/calculations/financialRatios/dti.ts). */
module Dti {
  import opened Results
  import opened Numeric
  import DividendYield

  /** `calculateDTI(totalDebt, grossIncome)`: the same guard and percentage
      as the dividend yield, with debt in place of dividends and income in
      place of price. */
  function CalculateDti(totalDebt: real, grossIncome: real): (r: Result<real>)
    ensures r.Ok? <==> totalDebt >= 0.0 && grossIncome > 0.0
    ensures r.Ok? ==> r.value == Round2((totalDebt / grossIncome) * 100.0) && r.value >= 0.0
  {
    if totalDebt < 0.0 || grossIncome <= 0.0 then Err(InvalidArgument)
    else
      Round2Sign((totalDebt / grossIncome) * 100.0);
      Ok(Round2((totalDebt / grossIncome) * 100.0))
  }

  /** The ratio agrees with the dividend-yield calculator on every input,
      errors included. */
  lemma DtiIsDividendYield(totalDebt: real, grossIncome: real)
    ensures CalculateDti(totalDebt, grossIncome) == DividendYield.CalculateDividendYield(totalDebt, grossIncome)
  {
  }

  /** No debt gives 0 and debt equal to income gives 100. */
  lemma DtiLandmarks(grossIncome: real)
    requires grossIncome > 0.0
    ensures CalculateDti(0.0, grossIncome) == Ok(0.0)
    ensures CalculateDti(grossIncome, grossIncome) == Ok(100.0)
  {
    DividendYield.YieldLandmarks(grossIncome);
    DtiIsDividendYield(0.0, grossIncome);
    DtiIsDividendYield(grossIncome, grossIncome);
  }

  /** More debt never lowers the ratio. */
  lemma DtiMonotoneInDebt(d1: real, d2: real, grossIncome: real)
    requires 0.0 <= d1 <= d2 && grossIncome > 0.0
    ensures CalculateDti(d1, grossIncome).value <= CalculateDti(d2, grossIncome).value
  {
    DividendYield.YieldMonotone(d1, d2, grossIncome, grossIncome);
    DtiIsDividendYield(d1, grossIncome);
    DtiIsDividendYield(d2, grossIncome);
  }
}

=== FILE: education_loan.dfy ===
/** Education-loan instalment and totals (src/calculations/loan/educationLoan.ts). */
module EducationLoan {
  import opened Results
  import opened Numeric
  import Annuity
  import HomeLoan

  /** `calculateEducationMonthlyPayment(principal, annualRate, loanTermYears)`:
      the same formula as the home-loan instalment. */
  function CalculateEducationMonthlyPayment(principal: real, annualRate: real, loanTermYears: nat): (r: Result<real>)
    ensures r.Ok? <==> principal > 0.0 && annualRate > 0.0 && loanTermYears > 0
    ensures r == HomeLoan.CalculateMonthlyPayment(principal, annualRate, loanTermYears)
    ensures r.Ok? ==>
      var e := Annuity.LevelPayment(principal, annualRate / 100.0 / 12.0, loanTermYears * 12);
      r.value == Round2(e) && e > 0.0 && e * (loanTermYears * 12) as real > principal
  {
    if principal <= 0.0 || annualRate <= 0.0 || loanTermYears <= 0 then Err(InvalidArgument)
    else
      var monthlyRate := annualRate / 100.0 / 12.0;
      var totalPayments := loanTermYears * 12;
      Annuity.LevelPaymentBounds(principal, monthlyRate, totalPayments);
      Ok(Round2(Annuity.LevelPayment(principal, monthlyRate, totalPayments)))
  }

  /** `calculateEducationLoanDetails(principal, annualRate, loanTermYears)`. */
  function CalculateEducationLoanDetails(principal: real, annualRate: real, loanTermYears: nat): (r: Result<Annuity.LoanTotals>)
    ensures r.Ok? <==> principal > 0.0 && annualRate > 0.0 && loanTermYears > 0
    ensures r.Ok? ==>
      var total := CalculateEducationMonthlyPayment(principal, annualRate, loanTermYears).value * (loanTermYears * 12) as real;
      r.value.totalPayment == Round2(total) && r.value.totalInterest == Round2(total - principal)
    ensures r.Ok? ==> -0.01 <= r.value.totalPayment - r.value.totalInterest - principal <= 0.01
    ensures r == HomeLoan.CalculateLoanDetails(principal, annualRate, loanTermYears)
  {
    var monthlyEmi :- CalculateEducationMonthlyPayment(principal, annualRate, loanTermYears);
    var totalPayments := loanTermYears * 12;
    Ok(Annuity.Totals(monthlyEmi, totalPayments, principal))
  }
}

=== FILE: emi.dfy ===
/** The equated monthly instalment for a loan whose term is given in months
    (src/calculations/loan/emi.ts). */
module Emi {
  import opened Results
  import opened Numeric
  import Annuity

  /** `calculateEMI(principal, rate, term)`: rate is an annual percentage and
      term a number of months. The instalment is the rounded level payment
      that clears the loan in exactly `term` months. */
  function CalculateEmi(principal: real, rate: real, term: nat): (r: Result<real>)
    ensures r.Ok? <==> principal > 0.0 && rate > 0.0 && term > 0
    ensures r.Ok? ==>
      var e := Annuity.LevelPayment(principal, rate / 12.0 / 100.0, term);
      && r.value == Round2(e)
      && e > 0.0
      && e * (term as real) > principal
      && Annuity.IsFirstDepletion(principal, rate / 12.0 / 100.0, e, term)
  {
    if principal <= 0.0 || rate <= 0.0 || term <= 0 then Err(InvalidArgument)
    else
      var monthlyRate := rate / 12.0 / 100.0;
      // The source returns principal / term when monthlyRate is 0; validation
      // has made monthlyRate positive, so that branch is dead.
      var fallback := principal / term as real;
      if monthlyRate == 0.0 then
        assert false;
        Ok(fallback)
      else
        Annuity.LevelPaymentBounds(principal, monthlyRate, term);
        Annuity.LevelPaymentClears(principal, monthlyRate, term);
        Ok(Round2(Annuity.LevelPayment(principal, monthlyRate, term)))
  }

  /** A one-month loan is repaid with one month's interest on top. */
  lemma SingleMonthEmi(principal: real, rate: real)
    requires principal > 0.0 && rate > 0.0
    ensures CalculateEmi(principal, rate, 1) == Ok(Round2(principal * (1.0 + rate / 1200.0)))
  {
    Annuity.LevelPaymentSingleTerm(principal, rate / 12.0 / 100.0);
    assert Annuity.LevelPayment(principal, rate / 12.0 / 100.0, 1) == principal * (1.0 + rate / 1200.0);
  }
}

=== FILE: financial_calculators.dfy ===
/** The equated monthly instalment for a tenure given in years
    (src/calculations/investment/financialCalculators.ts). */
module FinancialCalculators {
  import opened Results
  import opened Numeric
  import Annuity
  import Emi

  /** `calculateEMI(principal, annualInterestRate, loanTenureInYears)`: the
      months-based instalment over 12 payments a year. */
  function CalculateEmi(principal: real, annualInterestRate: real, loanTenureInYears: nat): (r: Result<real>)
    ensures r.Ok? <==> principal > 0.0 && annualInterestRate > 0.0 && loanTenureInYears > 0
    ensures r == Emi.CalculateEmi(principal, annualInterestRate, 12 * loanTenureInYears)
    ensures r.Ok? ==>
      var e := Annuity.LevelPayment(principal, annualInterestRate / 12.0 / 100.0, 12 * loanTenureInYears);
      r.value == Round2(e) && e > 0.0 && e * (12 * loanTenureInYears) as real > principal
  {
    if principal <= 0.0 || annualInterestRate <= 0.0 || loanTenureInYears <= 0 then Err(InvalidArgument)
    else
      var monthlyInterestRate := annualInterestRate / 12.0 / 100.0;
      var totalMonths := loanTenureInYears * 12;
      Annuity.LevelPaymentBounds(principal, monthlyInterestRate, totalMonths);
      Ok(Round2(Annuity.LevelPayment(principal, monthlyInterestRate, totalMonths)))
  }
}

=== FILE: heart_rate.dfy ===
/** Karvonen target heart-rate bands (src/calculations/fitness/heartRate.ts). */
module HeartRate {
  import opened Results
  import opened Numeric

  datatype Intensity = VeryLight | Light | Moderate | Hard | VeryHard

  /** Position of an intensity from lightest to hardest. */
  function Rank(intensity: Intensity): nat
  {
    match intensity
    case VeryLight => 0
    case Light => 1
    case Moderate => 2
    case Hard => 3
    case VeryHard => 4
  }

  /** The share of the heart-rate reserve at the bottom of each band. */
  function LowerShare(intensity: Intensity): real
  {
    match intensity
    case VeryLight => 0.0
    case Light => 0.2
    case Moderate => 0.4
    case Hard => 0.6
    case VeryHard => 0.85
  }

  /** The share of the heart-rate reserve at the top of each band. */
  function UpperShare(intensity: Intensity): real
  {
    match intensity
    case VeryLight => 0.19
    case Light => 0.39
    case Moderate => 0.59
    case Hard => 0.84
    case VeryHard => 1.0
  }

  /** Maximum heart rate 206.9 − 0.67·age. */
  function HrMax(age: real): real
  {
    206.9 - 0.67 * age
  }

  /** Karvonen target: resting rate plus a share of the reserve
      HrMax − resting. */
  function Target(age: real, restingHeartRate: real, share: real): real
  {
    (HrMax(age) - restingHeartRate) * share + restingHeartRate
  }

  datatype HrrRange = HrrRange(hrrMin: int, hrrMax: int)

  /** `calculateHRRRange(age, restingHeartRate, intensity)`: rejects a
      non-positive age or resting rate; otherwise the band's two targets,
      each rounded to the nearest whole beat. */
  function CalculateHrrRange(age: real, restingHeartRate: real, intensity: Intensity): (r: Result<HrrRange>)
    ensures r.Ok? <==> age > 0.0 && restingHeartRate > 0.0
    ensures r.Ok? ==>
      && r.value.hrrMin == JsRound(Target(age, restingHeartRate, LowerShare(intensity)))
      && r.value.hrrMax == JsRound(Target(age, restingHeartRate, UpperShare(intensity)))
      && Target(age, restingHeartRate, LowerShare(intensity)) - 0.5 < r.value.hrrMin as real
           <= Target(age, restingHeartRate, LowerShare(intensity)) + 0.5
      && Target(age, restingHeartRate, UpperShare(intensity)) - 0.5 < r.value.hrrMax as real
           <= Target(age, restingHeartRate, UpperShare(intensity)) + 0.5
  {
    if age <= 0.0 || restingHeartRate <= 0.0 then Err(InvalidArgument)
    else
      JsRoundBounds(Target(age, restingHeartRate, LowerShare(intensity)));
      JsRoundBounds(Target(age, restingHeartRate, UpperShare(intensity)));
      Ok(HrrRange(JsRound(Target(age, restingHeartRate, LowerShare(intensity))),
                  JsRound(Target(age, restingHeartRate, UpperShare(intensity)))))
  }

  /** Each band's shares rise from bottom to top and stay within [0, 1]. */
  lemma SharesOrdered(intensity: Intensity)
    ensures 0.0 <= LowerShare(intensity) < UpperShare(intensity) <= 1.0
  {
  }

  /** The bands do not overlap: each band's top share is below the next
      band's bottom share. */
  lemma BandsDisjoint(a: Intensity, b: Intensity)
    requires Rank(a) < Rank(b)
    ensures UpperShare(a) < LowerShare(b)
  {
  }

  /** While the resting rate does not exceed the maximum the band is never
      reversed. */
  lemma RangeOrdered(age: real, restingHeartRate: real, intensity: Intensity)
    requires age > 0.0 && restingHeartRate > 0.0 && restingHeartRate <= HrMax(age)
    ensures CalculateHrrRange(age, restingHeartRate, intensity).value.hrrMin
         <= CalculateHrrRange(age, restingHeartRate, intensity).value.hrrMax
  {
    SharesOrdered(intensity);
    MulMonotone(HrMax(age) - restingHeartRate, LowerShare(intensity), UpperShare(intensity));
    JsRoundMonotone(Target(age, restingHeartRate, LowerShare(intensity)),
                    Target(age, restingHeartRate, UpperShare(intensity)));
  }

  /** The very-light band starts at the resting rate and the very-hard band
      ends at the maximum rate. */
  lemma BandEnds(age: real, restingHeartRate: real)
    requires age > 0.0 && restingHeartRate > 0.0
    ensures CalculateHrrRange(age, restingHeartRate, VeryLight).value.hrrMin == JsRound(restingHeartRate)
    ensures CalculateHrrRange(age, restingHeartRate, VeryHard).value.hrrMax == JsRound(HrMax(age))
  {
  }
}

=== FILE: home_loan.dfy ===
/** Home-loan instalment and totals (src/calculations/investment/homeLoan.ts). */
module HomeLoan {
  import opened Results
  import opened Numeric
  import Annuity
  import FinancialCalculators

  /** `calculateMonthlyPayment(principal, annualRate, loanTermYears)`. It
      divides by 100 before 12, which in exact arithmetic is the same monthly
      rate, so it agrees with the years-based `calculateEMI`. */
  function CalculateMonthlyPayment(principal: real, annualRate: real, loanTermYears: nat): (r: Result<real>)
    ensures r.Ok? <==> principal > 0.0 && annualRate > 0.0 && loanTermYears > 0
    ensures r == FinancialCalculators.CalculateEmi(principal, annualRate, loanTermYears)
  {
    if principal <= 0.0 || annualRate <= 0.0 || loanTermYears <= 0 then Err(InvalidArgument)
    else
      var monthlyRate := annualRate / 100.0 / 12.0;
      var totalPayments := loanTermYears * 12;
      assert monthlyRate == annualRate / 12.0 / 100.0;
      Ok(Round2(Annuity.LevelPayment(principal, monthlyRate, totalPayments)))
  }

  /** `calculateLoanDetails(principal, annualRate, loanTermYears)`: throws
      exactly when the instalment does, with no partial record; otherwise the
      rounded instalment times the payments, and that less the principal. */
  function CalculateLoanDetails(principal: real, annualRate: real, loanTermYears: nat): (r: Result<Annuity.LoanTotals>)
    ensures r.Ok? <==> CalculateMonthlyPayment(principal, annualRate, loanTermYears).Ok?
    ensures r.Ok? ==>
      var total := CalculateMonthlyPayment(principal, annualRate, loanTermYears).value * (loanTermYears * 12) as real;
      r.value.totalPayment == Round2(total) && r.value.totalInterest == Round2(total - principal)
    ensures r.Ok? ==> -0.01 <= r.value.totalPayment - r.value.totalInterest - principal <= 0.01
  {
    var monthlyPayment :- CalculateMonthlyPayment(principal, annualRate, loanTermYears);
    var totalPayments := loanTermYears * 12;
    Ok(Annuity.Totals(monthlyPayment, totalPayments, principal))
  }
}

=== FILE: investment_calculators.dfy ===
/** Years-based SIP, step-up SIP, systematic withdrawal plans and lumpsum
    growth (src/calculations/investment/investmentCalculators.ts). */
module InvestmentCalculators {
  import opened Results
  import opened Numeric
  import Annuity
  import Sip

  // ---------------------------------------------------------------------------
  // calculateSIP (years)
  // ---------------------------------------------------------------------------

  /** `calculateSIP(monthlyInvestment, annualReturnRate, totalYears)`: the
      months-based plan over twelve deposits a year. */
  function CalculateSip(monthlyInvestment: real, annualReturnRate: real, totalYears: nat): (r: Result<real>)
    ensures r.Ok? <==> monthlyInvestment > 0.0 && annualReturnRate > 0.0 && totalYears > 0
    ensures r == Sip.CalculateSip(monthlyInvestment, annualReturnRate, 12 * totalYears)
  {
    if monthlyInvestment <= 0.0 || annualReturnRate <= 0.0 || totalYears <= 0 then Err(InvalidArgument)
    else
      var monthlyReturnRate := annualReturnRate / 12.0 / 100.0;
      var totalMonths := totalYears * 12;
      Ok(Round2(Annuity.SipValue(monthlyInvestment, monthlyReturnRate, totalMonths)))
  }

  // ---------------------------------------------------------------------------
  // calculateStepUpSIP
  // ---------------------------------------------------------------------------

  /** The sum the step-up loop has built after `year` passes: pass y adds the
      annuity-due value of the year-y instalment m·(1+x)^y deposited over all
      (totalYears − y)·12 remaining months. */
  function StepUpSum(m: real, i: real, x: real, totalYears: nat, year: nat): real
    requires i > 0.0 && year <= totalYears
  {
    if year == 0 then 0.0
    else
      StepUpSum(m, i, x, totalYears, year - 1)
        + Annuity.SipValue(Annuity.Compounded(m, x, year - 1), i, (totalYears - (year - 1)) * 12)
  }

  predicate StepUpArgumentsValid(initialInvestment: real, annualReturnRate: real, totalYears: nat, stepUpRate: real)
  {
    initialInvestment > 0.0 && annualReturnRate > 0.0 && totalYears > 0 && stepUpRate >= 0.0
  }

  /** `calculateStepUpSIP(initialInvestment, annualReturnRate, totalYears,
      stepUpRate)` as the source writes it. */
  function CalculateStepUpSip(initialInvestment: real, annualReturnRate: real, totalYears: nat, stepUpRate: real): (r: Result<real>)
    ensures r.Ok? <==> StepUpArgumentsValid(initialInvestment, annualReturnRate, totalYears, stepUpRate)
    ensures r.Ok? ==>
      r.value == Round2(StepUpSum(initialInvestment, annualReturnRate / 12.0 / 100.0,
                                  stepUpRate / 100.0, totalYears, totalYears))
  {
    if !StepUpArgumentsValid(initialInvestment, annualReturnRate, totalYears, stepUpRate) then Err(InvalidArgument)
    else
      Ok(Round2(StepUpSum(initialInvestment, annualReturnRate / 12.0 / 100.0,
                          stepUpRate / 100.0, totalYears, totalYears)))
  }

  /** The source's `for` loop over the years, accumulating into
      `maturityAmount`; it computes what the recursive sum defines. */
  method StepUpSipLoop(initialInvestment: real, annualReturnRate: real, totalYears: nat, stepUpRate: real)
    returns (r: Result<real>)
    ensures r == CalculateStepUpSip(initialInvestment, annualReturnRate, totalYears, stepUpRate)
  {
    if !StepUpArgumentsValid(initialInvestment, annualReturnRate, totalYears, stepUpRate) {
      return Err(InvalidArgument);
    }
    var monthlyReturnRate := annualReturnRate / 12.0 / 100.0;
    var maturityAmount := 0.0;
    var year := 0;
    while year < totalYears
      invariant 0 <= year <= totalYears
      invariant maturityAmount
             == StepUpSum(initialInvestment, monthlyReturnRate, stepUpRate / 100.0, totalYears, year)
    {
      var currentInvestment := Annuity.Compounded(initialInvestment, stepUpRate / 100.0, year);
      var monthsRemaining := (totalYears - year) * 12;
      maturityAmount := maturityAmount + Annuity.SipValue(currentInvestment, monthlyReturnRate, monthsRemaining);
      year := year + 1;
    }
    return Ok(Round2(maturityAmount));
  }

  /** For a one-year plan the step-up never applies and the result is the
      one-year SIP. */
  lemma StepUpOneYearIsSip(initialInvestment: real, annualReturnRate: real, stepUpRate: real)
    requires initialInvestment > 0.0 && annualReturnRate > 0.0 && stepUpRate >= 0.0
    ensures CalculateStepUpSip(initialInvestment, annualReturnRate, 1, stepUpRate)
         == CalculateSip(initialInvestment, annualReturnRate, 1)
  {
    var i := annualReturnRate / 12.0 / 100.0;
    var x := stepUpRate / 100.0;
    assert Annuity.Compounded(initialInvestment, x, 0) == initialInvestment;
    assert StepUpSum(initialInvestment, i, x, 1, 1) == Annuity.SipValue(initialInvestment, i, 12);
  }

  /** From the second pass on, the sum exceeds the first pass's full-term
      annuity by at least one year's plain SIP of m: later passes only add. */
  lemma {:induction false} StepUpSumExceedsFirst(m: real, i: real, x: real, totalYears: nat, year: nat)
    requires m > 0.0 && i > 0.0 && x >= 0.0 && 2 <= year <= totalYears
    ensures StepUpSum(m, i, x, totalYears, year)
         >= StepUpSum(m, i, x, totalYears, 1) + Annuity.SipValue(m, i, 12)
  {
    StepUpSumGrows(m, i, x, totalYears, year);
    if year > 2 {
      StepUpSumExceedsFirst(m, i, x, totalYears, year - 1);
      Annuity.SipValueExceedsDeposits(m, i, 12);
    }
  }

  /** Pass `year` adds at least one year's plain SIP value of m. */
  lemma StepUpSumGrows(m: real, i: real, x: real, totalYears: nat, year: nat)
    requires m > 0.0 && i > 0.0 && x >= 0.0 && 1 <= year <= totalYears
    ensures StepUpSum(m, i, x, totalYears, year)
         >= StepUpSum(m, i, x, totalYears, year - 1) + Annuity.SipValue(m, i, 12)
  {
    var n := (totalYears - (year - 1)) * 12;
    PowAtLeastOne(1.0 + x, year - 1);
    MulMonotone(m, 1.0, Pow(1.0 + x, year - 1));
    StepUpTermAtLeastOneYear(m, Annuity.Compounded(m, x, year - 1), i, n);
  }

  /** A deposit of at least m made over at least twelve months is worth at
      least m deposited over twelve. */
  lemma StepUpTermAtLeastOneYear(m: real, grown: real, i: real, n: nat)
    requires 0.0 < m <= grown && i > 0.0 && n >= 12
    ensures Annuity.SipValue(grown, i, n) >= Annuity.SipValue(m, i, 12)
  {
    // Every product below is over these names (see Annuity.AccumulatedSplit).
    var s12, sn, rest, g := GeomSum(1.0 + i, 12), GeomSum(1.0 + i, n), GeomSum(1.0 + i, n - 12), Pow(1.0 + i, 12);
    assert 12 + (n - 12) == n;
    GeomSumSplitFactored(1.0 + i, 12, n - 12, sn, s12, rest, g);
    PowPositive(1.0 + i, 12);
    GeomSumAtLeastCount(1.0 + i, n - 12);
    MulNonNegative(g, rest);
    GeomSumAtLeastCount(1.0 + i, 12);
    Annuity.SipValueFactored(grown, i, n, sn);
    Annuity.SipValueFactored(m, i, 12, s12);
    ScaledProductMonotone(m, grown, 1.0 + i, s12, sn);
  }

  /** 0 < m <= M and 0 <= s <= S give m·b·s <= M·b·S for b > 0. */
  lemma ScaledProductMonotone(m: real, grown: real, b: real, s: real, t: real)
    requires 0.0 < m <= grown && b > 0.0 && 0.0 <= s <= t
    ensures m * b * s <= grown * b * t
  {
    MulMonotone(s, m, grown);
    MulMonotone(grown, s, t);
    assert m * s <= grown * t;
    MulMonotone(b, m * s, grown * t);
    assert m * b * s == b * (m * s);
    assert grown * b * t == b * (grown * t);
  }

  /** As written, a flat plan (no step-up) of two or more years reports more
      than the plain SIP over the same months: every later year's instalment
      is counted again on top of the first year's full-term annuity. */
  lemma StepUpOverCounts(initialInvestment: real, annualReturnRate: real, totalYears: nat)
    requires initialInvestment >= 0.01 && annualReturnRate > 0.0 && totalYears >= 2
    ensures CalculateStepUpSip(initialInvestment, annualReturnRate, totalYears, 0.0).value
          > CalculateSip(initialInvestment, annualReturnRate, totalYears).value
  {
    var m := initialInvestment;
    var i := annualReturnRate / 12.0 / 100.0;
    var total := StepUpSum(m, i, 0.0, totalYears, totalYears);
    var plain := Annuity.SipValue(m, i, 12 * totalYears);
    assert Annuity.Compounded(m, 0.0, 0) == m;
    assert StepUpSum(m, i, 0.0, totalYears, 1) == plain;
    StepUpSumExceedsFirst(m, i, 0.0, totalYears, totalYears);
    Annuity.SipValueExceedsDeposits(m, i, 12);
    assert total > plain + 0.01;
    Round2Error(total);
    Round2Error(plain);
  }

  /** The intended step-up plan: year k's instalment m·(1+x)^k is deposited
      over that year's twelve months only, and everything already saved keeps
      growing for those months. */
  function StepUpValue(m: real, i: real, x: real, years: nat): real
    requires i > 0.0
  {
    if years == 0 then 0.0
    else
      Annuity.Compounded(StepUpValue(m, i, x, years - 1), i, 12)
        + Annuity.SipValue(Annuity.Compounded(m, x, years - 1), i, 12)
  }

  /** `calculateStepUpSIP` built on the intended year-by-year value. */
  function CalculateStepUpSipCorrected(initialInvestment: real, annualReturnRate: real, totalYears: nat, stepUpRate: real): (r: Result<real>)
    ensures r.Ok? <==> StepUpArgumentsValid(initialInvestment, annualReturnRate, totalYears, stepUpRate)
    ensures r.Ok? ==>
      r.value == Round2(StepUpValue(initialInvestment, annualReturnRate / 12.0 / 100.0,
                                    stepUpRate / 100.0, totalYears))
  {
    if !StepUpArgumentsValid(initialInvestment, annualReturnRate, totalYears, stepUpRate) then Err(InvalidArgument)
    else
      Ok(Round2(StepUpValue(initialInvestment, annualReturnRate / 12.0 / 100.0,
                            stepUpRate / 100.0, totalYears)))
  }

  /** Without a step-up, the intended value is the plain SIP over 12·years months. */
  lemma {:induction false} StepUpValueFlat(m: real, i: real, years: nat)
    requires i > 0.0
    ensures StepUpValue(m, i, 0.0, years) == Annuity.SipValue(m, i, 12 * years)
  {
    if years == 0 {
      Annuity.SipValueIsAccumulated(m, i, 0);
    } else {
      StepUpValueFlat(m, i, years - 1);
      PowOfOne(years - 1);
      assert Annuity.Compounded(m, 0.0, years - 1) == m;
      SipValueOneMoreYear(m, i, years - 1);
    }
  }

  /** A year more of deposits: the savings so far grow for twelve months and
      a fresh year of deposits is added. */
  lemma SipValueOneMoreYear(m: real, i: real, k: nat)
    requires i > 0.0
    ensures Annuity.SipValue(m, i, 12 * (k + 1))
         == Annuity.Compounded(Annuity.SipValue(m, i, 12 * k), i, 12) + Annuity.SipValue(m, i, 12)
  {
    SipValueSplit(m, i, 12, 12 * k);
    assert 12 + 12 * k == 12 * (k + 1);
  }

  /** a + n months of deposits: the first n months' value grows for a more
      months, and a months of fresh deposits are added. */
  lemma SipValueSplit(m: real, i: real, a: nat, n: nat)
    requires i > 0.0
    ensures Annuity.SipValue(m, i, a + n)
         == Annuity.Compounded(Annuity.SipValue(m, i, n), i, a) + Annuity.SipValue(m, i, a)
  {
    Annuity.SipValueIsAccumulated(m, i, n);
    Annuity.SipValueIsAccumulated(m, i, a);
    Annuity.SipValueIsAccumulated(m, i, a + n);
    Annuity.AccumulatedSplit(m, i, a, n);
  }

  /** The corrected calculator agrees with the plain SIP when there is no step-up. */
  lemma StepUpCorrectedFlatIsSip(initialInvestment: real, annualReturnRate: real, totalYears: nat)
    ensures CalculateStepUpSipCorrected(initialInvestment, annualReturnRate, totalYears, 0.0)
         == CalculateSip(initialInvestment, annualReturnRate, totalYears)
  {
    if StepUpArgumentsValid(initialInvestment, annualReturnRate, totalYears, 0.0) {
      StepUpValueFlat(initialInvestment, annualReturnRate / 12.0 / 100.0, totalYears);
    }
  }

  // ---------------------------------------------------------------------------
  // calculateSWPDuration
  // ---------------------------------------------------------------------------

  /** What the withdrawal loop reports: the month the corpus ran out, or, when
      the withdrawal never exceeds the corpus's growth, that the loop never
      ends (the source does not return in that case). */
  datatype Depletion = DepletedAfter(months: nat) | NeverDepleted

  /** Each month of the drawdown takes at least the first month's shortfall
      w − c·i off the balance, so if `bound` shortfalls cover the corpus,
      `bound` − 1 of the next month's (larger) shortfalls cover what is left. */
  lemma DepletionStep(c: real, i: real, w: real, bound: nat)
    requires c > 0.0 && i >= 0.0 && w > c * i && (bound as real) * (w - c * i) >= c
    requires c + c * i - w > 0.0
    ensures var c' := c + c * i - w;
      && w > c' * i
      && bound >= 1
      && ((bound - 1) as real) * (w - c' * i) >= c'
  {
    var c' := c + c * i - w;
    var d := w - c * i;
    var d' := w - c' * i;
    MulMonotone(i, c', c);
    assert d' >= d;
    assert c' == c - d;
    BoundPositive(c, d, bound);
    assert ((bound - 1) as real) * d == (bound as real) * d - d;
    MulMonotone((bound - 1) as real, d, d');
  }

  /** A bound whose shortfalls cover a positive corpus is at least one. */
  lemma BoundPositive(c: real, d: real, bound: nat)
    requires c > 0.0 && d > 0.0 && (bound as real) * d >= c
    ensures bound >= 1
  {
  }

  /** ⌈c / d⌉ shortfalls of d cover c. */
  lemma CeilingCovers(c: real, d: real)
    requires c > 0.0 && d > 0.0
    ensures Ceiling(c / d) >= 1
    ensures (Ceiling(c / d) as real) * d >= c
  {
    CeilingBounds(c / d);
    MulMonotone(d, c / d, Ceiling(c / d) as real);
    assert c / d * d == c;
  }

  /** ⌈c / (w − c·i)⌉: how many first-month shortfalls it takes to cover the corpus. */
  function SwpMonthsBound(c: real, i: real, w: real): (bound: nat)
    requires c > 0.0 && w > c * i
    ensures bound >= 1 && (bound as real) * (w - c * i) >= c
  {
    CeilingCovers(c, w - c * i);
    Ceiling(c / (w - c * i)) as nat
  }

  /** The month-by-month loop, stopping at the first month the balance is no
      longer positive. It ends because the balance falls by at least the
      first month's shortfall w − c·i every month, so any `bound` whose
      shortfalls cover the corpus bounds the months. */
  function MonthsUntilDepleted(c: real, i: real, w: real, bound: nat): (months: nat)
    requires c > 0.0 && i >= 0.0 && w > c * i && (bound as real) * (w - c * i) >= c
    ensures Annuity.IsFirstDepletion(c, i, w, months)
    ensures months <= bound
    decreases bound
  {
    var next := c + c * i - w;
    if next <= 0.0 then
      DepletionFirstMonth(c, i, w);
      BoundPositive(c, w - c * i, bound);
      1
    else
      DepletionStep(c, i, w, bound);
      var later := MonthsUntilDepleted(next, i, w, bound - 1);
      FirstDepletionShift(c, i, w, later);
      1 + later
  }

  lemma DepletionFirstMonth(c: real, i: real, w: real)
    requires c > 0.0 && c + c * i - w <= 0.0
    ensures Annuity.IsFirstDepletion(c, i, w, 1)
  {
    assert Annuity.Remaining(c, i, w, 1) == c + c * i - w;
  }

  /** A first depletion month m of the balance after one month is month
      m + 1 of the original drawdown. */
  lemma FirstDepletionShift(c: real, i: real, w: real, m: nat)
    requires c + c * i - w > 0.0
    requires Annuity.IsFirstDepletion(c + c * i - w, i, w, m)
    ensures Annuity.IsFirstDepletion(c, i, w, m + 1)
  {
    var next := c + c * i - w;
    forall k | 1 <= k < m + 1
      ensures Annuity.Remaining(c, i, w, k) > 0.0
    {
      assert Annuity.Remaining(c, i, w, k) == Annuity.Remaining(next, i, w, k - 1);
    }
  }

  /** When the withdrawal does not exceed the growth, the balance never drops. */
  lemma NeverDepletes(c: real, i: real, w: real)
    requires c > 0.0 && i >= 0.0 && w <= c * i
    ensures forall k :: Annuity.Remaining(c, i, w, k) >= c
  {
    forall k {
      Annuity.RemainingNeverBelowStart(c, i, w, k);
    }
  }

  /** `calculateSWPDuration(initialCorpus, withdrawalAmount, annualReturnRate)`. */
  function CalculateSwpDuration(initialCorpus: real, withdrawalAmount: real, annualReturnRate: real): (r: Result<Depletion>)
    ensures r.Ok? <==> initialCorpus > 0.0 && withdrawalAmount > 0.0 && annualReturnRate >= 0.0
    ensures r.Ok? ==>
      var i := annualReturnRate / 12.0 / 100.0;
      && (r.value.NeverDepleted? <==> withdrawalAmount <= initialCorpus * i)
      && (r.value.NeverDepleted? ==>
            forall k :: Annuity.Remaining(initialCorpus, i, withdrawalAmount, k) >= initialCorpus)
      && (r.value.DepletedAfter? ==>
            && Annuity.IsFirstDepletion(initialCorpus, i, withdrawalAmount, r.value.months)
            && r.value.months <= SwpMonthsBound(initialCorpus, i, withdrawalAmount))
  {
    if initialCorpus <= 0.0 || withdrawalAmount <= 0.0 || annualReturnRate < 0.0 then Err(InvalidArgument)
    else
      var monthlyReturnRate := annualReturnRate / 12.0 / 100.0;
      if withdrawalAmount <= initialCorpus * monthlyReturnRate then
        NeverDepletes(initialCorpus, monthlyReturnRate, withdrawalAmount);
        Ok(NeverDepleted)
      else
        var bound := SwpMonthsBound(initialCorpus, monthlyReturnRate, withdrawalAmount);
        Ok(DepletedAfter(MonthsUntilDepleted(initialCorpus, monthlyReturnRate, withdrawalAmount, bound)))
  }

  /** At a zero return the corpus lasts ⌈corpus / withdrawal⌉ months. */
  lemma SwpDurationWithoutReturn(initialCorpus: real, withdrawalAmount: real)
    requires initialCorpus > 0.0 && withdrawalAmount > 0.0
    ensures CalculateSwpDuration(initialCorpus, withdrawalAmount, 0.0)
         == Ok(DepletedAfter(Ceiling(initialCorpus / withdrawalAmount) as nat))
  {
    var c := initialCorpus;
    var w := withdrawalAmount;
    var q := c / w;
    var m := Ceiling(q);
    assert q > 0.0;
    assert (m as real) - 1.0 < q <= m as real;
    assert m >= 1;
    assert c == q * w;
    forall k: nat | 1 <= k < m
      ensures Annuity.Remaining(c, 0.0, w, k) > 0.0
    {
      Annuity.RemainingWithoutGrowth(c, w, k);
      MulStrictlyMonotone(w, k as real, q);
    }
    Annuity.RemainingWithoutGrowth(c, w, m as nat);
    MulMonotone(w, q, m as real);
    assert Annuity.IsFirstDepletion(c, 0.0, w, m as nat);
    var r := CalculateSwpDuration(c, w, 0.0);
    assert 0.0 / 12.0 / 100.0 == 0.0;
    Annuity.FirstDepletionUnique(c, 0.0, w, r.value.months, m as nat);
  }

  // ---------------------------------------------------------------------------
  // calculateSWPAmount
  // ---------------------------------------------------------------------------

  /** `calculateSWPAmount(initialCorpus, durationMonths, annualReturnRate)` as
      the source writes it: C·i / (1 − (1+i)^(−n)), where JavaScript's
      division yields NaN at a zero rate (0 / 0). */
  function CalculateSwpAmount(initialCorpus: real, durationMonths: nat, annualReturnRate: real): (r: Result<Number>)
    ensures r.Ok? <==> initialCorpus > 0.0 && durationMonths > 0 && annualReturnRate >= 0.0
    ensures r.Ok? && annualReturnRate == 0.0 ==> r.value == NaN
    ensures r.Ok? && annualReturnRate > 0.0 ==>
      r.value == Finite(Round2(Annuity.LevelPayment(initialCorpus, annualReturnRate / 12.0 / 100.0, durationMonths)))
  {
    if initialCorpus <= 0.0 || durationMonths <= 0 || annualReturnRate < 0.0 then Err(InvalidArgument)
    else
      var monthlyReturnRate := annualReturnRate / 12.0 / 100.0;
      PowPositive(1.0 + monthlyReturnRate, durationMonths);
      var discount := 1.0 / Pow(1.0 + monthlyReturnRate, durationMonths);
      WithdrawalIsLevelPayment(initialCorpus, monthlyReturnRate, durationMonths);
      Ok(RoundNumber(Divide(initialCorpus * monthlyReturnRate, 1.0 - discount)))
  }

  /** At a positive rate C·i / (1 − (1+i)^(−n)) is the amortisation level
      payment; at a zero rate both the numerator and denominator vanish. */
  lemma WithdrawalIsLevelPayment(c: real, i: real, n: nat)
    requires i >= 0.0 && n >= 1
    ensures Pow(1.0 + i, n) > 0.0
    ensures i == 0.0 ==> c * i == 0.0 && 1.0 - 1.0 / Pow(1.0 + i, n) == 0.0
    ensures i > 0.0 ==>
      && 1.0 - 1.0 / Pow(1.0 + i, n) != 0.0
      && c * i / (1.0 - 1.0 / Pow(1.0 + i, n)) == Annuity.LevelPayment(c, i, n)
  {
    PowPositive(1.0 + i, n);
    if i == 0.0 {
      PowOfOne(n);
    } else {
      var g := Pow(1.0 + i, n);
      PowGreaterThanOne(1.0 + i, n);
      assert 1.0 - 1.0 / g == (g - 1.0) / g;
      assert c * i / ((g - 1.0) / g) == c * i * g / (g - 1.0);
    }
  }

  /** As written the calculator returns NaN for every valid zero-rate request. */
  lemma SwpAmountZeroRateIsNaN(initialCorpus: real, durationMonths: nat)
    requires initialCorpus > 0.0 && durationMonths > 0
    ensures CalculateSwpAmount(initialCorpus, durationMonths, 0.0) == Ok(NaN)
  {
  }

  /** The intended monthly withdrawal: the level payment at a positive rate,
      and an equal share of the corpus at a zero rate. */
  function SwpWithdrawal(c: real, i: real, n: nat): real
    requires i >= 0.0 && n >= 1
  {
    if i == 0.0 then c / n as real else Annuity.LevelPayment(c, i, n)
  }

  /** `calculateSWPAmount` with the zero-rate case answered by C / n. */
  function CalculateSwpAmountCorrected(initialCorpus: real, durationMonths: nat, annualReturnRate: real): (r: Result<real>)
    ensures r.Ok? <==> initialCorpus > 0.0 && durationMonths > 0 && annualReturnRate >= 0.0
    ensures r.Ok? ==>
      r.value == Round2(SwpWithdrawal(initialCorpus, annualReturnRate / 12.0 / 100.0, durationMonths))
    ensures r.Ok? && annualReturnRate > 0.0 ==>
      CalculateSwpAmount(initialCorpus, durationMonths, annualReturnRate) == Ok(Finite(r.value))
  {
    if initialCorpus <= 0.0 || durationMonths <= 0 || annualReturnRate < 0.0 then Err(InvalidArgument)
    else Ok(Round2(SwpWithdrawal(initialCorpus, annualReturnRate / 12.0 / 100.0, durationMonths)))
  }

  /** An equal share of the corpus, with no growth, lasts exactly n months. */
  lemma EqualShareClears(c: real, n: nat)
    requires c > 0.0 && n >= 1
    ensures Annuity.IsFirstDepletion(c, 0.0, c / n as real, n)
  {
    var w := c / n as real;
    assert w * (n as real) == c;
    forall k: nat | 1 <= k < n
      ensures Annuity.Remaining(c, 0.0, w, k) > 0.0
    {
      Annuity.RemainingWithoutGrowth(c, w, k);
      MulStrictlyMonotone(w, k as real, n as real);
    }
    Annuity.RemainingWithoutGrowth(c, w, n);
  }

  /** Round trip: withdrawing the (unrounded) intended amount each month
      drains the corpus in exactly the requested number of months. */
  lemma SwpRoundTrip(initialCorpus: real, durationMonths: nat, annualReturnRate: real)
    requires initialCorpus > 0.0 && durationMonths > 0 && annualReturnRate >= 0.0
    ensures var w := SwpWithdrawal(initialCorpus, annualReturnRate / 12.0 / 100.0, durationMonths);
      CalculateSwpDuration(initialCorpus, w, annualReturnRate) == Ok(DepletedAfter(durationMonths))
  {
    var c := initialCorpus;
    var i := annualReturnRate / 12.0 / 100.0;
    var w := SwpWithdrawal(c, i, durationMonths);
    if i == 0.0 {
      EqualShareClears(c, durationMonths);
      assert w > 0.0;
    } else {
      Annuity.LevelPaymentClears(c, i, durationMonths);
      Annuity.LevelPaymentBounds(c, i, durationMonths);
    }
    var r := CalculateSwpDuration(c, w, annualReturnRate);
    Annuity.FirstDepletionUnique(c, i, w, r.value.months, durationMonths);
  }

  // ---------------------------------------------------------------------------
  // calculateLumpsum
  // ---------------------------------------------------------------------------

  /** `calculateLumpsum(principal, annualReturnRate, totalYears)`: yearly
      compounding; the unrounded value exceeds the principal by at least the
      simple interest on it. */
  function CalculateLumpsum(principal: real, annualReturnRate: real, totalYears: nat): (r: Result<real>)
    ensures r.Ok? <==> principal > 0.0 && annualReturnRate > 0.0 && totalYears > 0
    ensures r.Ok? ==>
      var future := Annuity.Compounded(principal, annualReturnRate / 100.0, totalYears);
      && r.value == Round2(future)
      && future >= principal * (1.0 + (totalYears as real) * annualReturnRate / 100.0)
      && future > principal
  {
    if principal <= 0.0 || annualReturnRate <= 0.0 || totalYears <= 0 then Err(InvalidArgument)
    else
      Annuity.CompoundedGrowth(principal, annualReturnRate / 100.0, totalYears);
      Ok(Round2(Annuity.Compounded(principal, annualReturnRate / 100.0, totalYears)))
  }
}

=== FILE: macros.dfy ===
/** Macronutrient split of a daily energy budget (src/calculations/fitness/macros.ts). */
module Macros {
  import opened Results
  import opened Numeric

  datatype Goal = Balanced | LowCarb | HighCarb | Ketogenic

  /** Shares of the energy budget, or grams of each nutrient. */
  datatype Split = Split(protein: real, fat: real, carbs: real)

  /** The ratio table. */
  function Ratios(goal: Goal): Split
  {
    match goal
    case Balanced => Split(0.3, 0.3, 0.4)
    case LowCarb => Split(0.4, 0.4, 0.2)
    case HighCarb => Split(0.2, 0.2, 0.6)
    case Ketogenic => Split(0.25, 0.7, 0.05)
  }

  /** Energy per gram: 4 kcal for protein and carbohydrate, 9 for fat. */
  const ProteinKcalPerGram: real := 4.0
  const FatKcalPerGram: real := 9.0
  const CarbKcalPerGram: real := 4.0

  /** The grams before rounding. */
  function Grams(tdee: real, goal: Goal): Split
  {
    Split(tdee * Ratios(goal).protein / ProteinKcalPerGram,
          tdee * Ratios(goal).fat / FatKcalPerGram,
          tdee * Ratios(goal).carbs / CarbKcalPerGram)
  }

  /** The energy the grams of a split provide. */
  function Energy(grams: Split): real
  {
    ProteinKcalPerGram * grams.protein + FatKcalPerGram * grams.fat + CarbKcalPerGram * grams.carbs
  }

  /** `calculateMacros(tdee, goal)`: rejects a non-positive budget; otherwise
      each nutrient's grams rounded to cents. The rounded grams are not
      negative and provide the whole budget to within the rounding of the three
      values. */
  function CalculateMacros(tdee: real, goal: Goal): (r: Result<Split>)
    ensures r.Ok? <==> tdee > 0.0
    ensures r.Ok? ==>
      && r.value == Split(Round2(Grams(tdee, goal).protein), Round2(Grams(tdee, goal).fat),
                          Round2(Grams(tdee, goal).carbs))
      && r.value.protein >= 0.0 && r.value.fat >= 0.0 && r.value.carbs >= 0.0
      && tdee - 0.085 <= Energy(r.value) <= tdee + 0.085
  {
    if tdee <= 0.0 then Err(InvalidArgument)
    else
      var g := Grams(tdee, goal);
      EnergyConserved(tdee, goal);
      GramsPositive(tdee, goal);
      Round2Error(g.protein);
      Round2Error(g.fat);
      Round2Error(g.carbs);
      Ok(Split(Round2(g.protein), Round2(g.fat), Round2(g.carbs)))
  }

  /** Every goal splits the whole budget: the three shares sum to 1 and are positive. */
  lemma RatiosSumToOne(goal: Goal)
    ensures Ratios(goal).protein + Ratios(goal).fat + Ratios(goal).carbs == 1.0
    ensures Ratios(goal).protein > 0.0 && Ratios(goal).fat > 0.0 && Ratios(goal).carbs > 0.0
  {
  }

  /** Before rounding the grams provide exactly the budget. */
  lemma EnergyConserved(tdee: real, goal: Goal)
    ensures Energy(Grams(tdee, goal)) == tdee
  {
    RatiosSumToOne(goal);
    var s := Ratios(goal);
    assert Energy(Grams(tdee, goal)) == tdee * (s.protein + s.fat + s.carbs);
  }

  /** A positive budget gives a positive amount of each nutrient before
      rounding; rounding keeps it non-negative (a budget small enough rounds
      a share down to 0). */
  lemma GramsPositive(tdee: real, goal: Goal)
    requires tdee > 0.0
    ensures Grams(tdee, goal).protein > 0.0 && Grams(tdee, goal).fat > 0.0 && Grams(tdee, goal).carbs > 0.0
    ensures Round2(Grams(tdee, goal).protein) >= 0.0
    ensures Round2(Grams(tdee, goal).fat) >= 0.0
    ensures Round2(Grams(tdee, goal).carbs) >= 0.0
  {
    RatiosSumToOne(goal);
    var s := Ratios(goal);
    MulPositive(tdee, s.protein);
    MulPositive(tdee, s.fat);
    MulPositive(tdee, s.carbs);
    Round2Sign(Grams(tdee, goal).protein);
    Round2Sign(Grams(tdee, goal).fat);
    Round2Sign(Grams(tdee, goal).carbs);
  }

  /** The unrounded grams scale with the budget. */
  lemma GramsLinear(tdee: real, k: real, goal: Goal)
    ensures Grams(k * tdee, goal) == Split(k * Grams(tdee, goal).protein, k * Grams(tdee, goal).fat,
                                           k * Grams(tdee, goal).carbs)
  {
  }
}

=== FILE: numeric.dfy ===
/** Exact-arithmetic counterparts of the JavaScript numeric primitives the
    calculators use: `Math.pow` with a whole exponent, `x.toFixed(2)` read back
    with `parseFloat`, `Math.round`, and `/` where it can produce NaN. */
module Numeric {

  // ---------------------------------------------------------------------------
  // Ordered-field facts the solver does not always find on its own
  // ---------------------------------------------------------------------------

  lemma MulPositive(x: real, y: real)
    requires x > 0.0 && y > 0.0
    ensures x * y > 0.0
  {
  }

  lemma MulMonotone(a: real, x: real, y: real)
    requires a >= 0.0 && x <= y
    ensures a * x <= a * y
  {
    assert a * y - a * x == a * (y - x);
    MulNonNegative(a, y - x);
  }

  lemma MulStrictlyMonotone(a: real, x: real, y: real)
    requires a > 0.0 && x < y
    ensures a * x < a * y
  {
    assert a * y - a * x == a * (y - x);
    MulPositive(a, y - x);
  }

  lemma MulNonNegative(x: real, y: real)
    requires x >= 0.0 && y >= 0.0
    ensures x * y >= 0.0
  {
  }

  /** Equal factors give equal products (the solver does not always
      substitute inside a nonlinear product). */
  lemma MulEqual(x: real, y: real, z: real)
    requires x == y
    ensures x * z == y * z
  {
  }

  lemma DivideMonotone(a: real, b: real, d: real)
    requires a <= b && d > 0.0
    ensures a / d <= b / d
  {
    assert b / d - a / d == (b - a) / d;
  }

  /** A positive numerator over a larger denominator gives a smaller quotient. */
  lemma DivideByLarger(a: real, d: real, e: real)
    requires a >= 0.0 && 0.0 < d <= e
    ensures a / e <= a / d
  {
    assert a / e * e == a;
    assert a / d * d == a;
    MulNonNegative(a, 1.0 / e);
    assert a / e == a * (1.0 / e);
    MulMonotone(a / e, d, e);
  }

  /** The smallest integer not below x. */
  function Ceiling(x: real): int
  {
    -((-x).Floor)
  }

  lemma CeilingBounds(x: real)
    ensures x <= Ceiling(x) as real < x + 1.0
  {
  }

  lemma CeilingMonotone(x: real, y: real)
    requires x <= y
    ensures Ceiling(x) <= Ceiling(y)
  {
  }

  lemma CeilingShift(x: real)
    ensures Ceiling(x - 1.0) == Ceiling(x) - 1
  {
  }

  // ---------------------------------------------------------------------------
  // Powers and geometric sums
  // ---------------------------------------------------------------------------

  /** b^n for a whole exponent, which is what `Math.pow(b, n)` computes. */
  function Pow(b: real, n: nat): real
  {
    if n == 0 then 1.0 else b * Pow(b, n - 1)
  }

  /** 1 + b + b^2 + ... + b^(n-1). */
  function GeomSum(b: real, n: nat): real
  {
    if n == 0 then 0.0 else GeomSum(b, n - 1) + Pow(b, n - 1)
  }

  /** One more factor of b, with both powers named. */
  lemma PowNextFactored(b: real, n: nat, t: real, q: real)
    requires t == Pow(b, n + 1) && q == Pow(b, n)
    ensures t == b * q
  {
  }

  lemma {:induction false} PowPositive(b: real, n: nat)
    requires b > 0.0
    ensures Pow(b, n) > 0.0
  {
    if n > 0 {
      PowPositive(b, n - 1);
    }
  }

  lemma {:induction false} PowAtLeastOne(b: real, n: nat)
    requires b >= 1.0
    ensures Pow(b, n) >= 1.0
  {
    if n > 0 {
      PowAtLeastOne(b, n - 1);
      MulMonotone(Pow(b, n - 1), 1.0, b);
    }
  }

  lemma {:induction false} PowOfOne(n: nat)
    ensures Pow(1.0, n) == 1.0
  {
    if n > 0 {
      PowOfOne(n - 1);
    }
  }

  /** For a base above 1, a larger exponent gives a strictly larger power. */
  lemma {:induction false} PowStrictlyIncreasing(b: real, m: nat, n: nat)
    requires b > 1.0 && m < n
    ensures Pow(b, m) < Pow(b, n)
  {
    var p := Pow(b, n - 1);
    PowPositive(b, n - 1);
    MulStrictlyMonotone(p, 1.0, b);
    assert Pow(b, n) == b * p;
    if m < n - 1 {
      PowStrictlyIncreasing(b, m, n - 1);
      assert Pow(b, m) < p;
    } else {
      assert m == n - 1;
    }
  }

  lemma PowGreaterThanOne(b: real, n: nat)
    requires b > 1.0 && n >= 1
    ensures Pow(b, n) > 1.0
  {
    PowStrictlyIncreasing(b, 0, n);
  }

  lemma {:induction false} PowAdd(b: real, m: nat, n: nat)
    ensures Pow(b, m + n) == Pow(b, m) * Pow(b, n)
  {
    if m > 0 {
      PowAdd(b, m - 1, n);
      assert Pow(b, m + n) == b * Pow(b, m - 1 + n);
      assert b * (Pow(b, m - 1) * Pow(b, n)) == (b * Pow(b, m - 1)) * Pow(b, n);
    }
  }

  /** Bernoulli's inequality: (1 + x)^n >= 1 + n·x for x >= 0. */
  lemma {:induction false} Bernoulli(x: real, n: nat)
    requires x >= 0.0
    ensures Pow(1.0 + x, n) >= 1.0 + (n as real) * x
  {
    if n > 0 {
      Bernoulli(x, n - 1);
      var p := Pow(1.0 + x, n - 1);
      var q := 1.0 + ((n - 1) as real) * x;
      MulMonotone(1.0 + x, q, p);
      assert (1.0 + x) * q == 1.0 + (n as real) * x + ((n - 1) as real) * (x * x);
      MulNonNegative((n - 1) as real, x * x);
    }
  }

  /** (b - 1)·(1 + b + ... + b^(n-1)) = b^n - 1. */
  lemma {:induction false} GeomSumClosedForm(b: real, n: nat)
    ensures (b - 1.0) * GeomSum(b, n) == Pow(b, n) - 1.0
  {
    if n > 0 {
      GeomSumClosedForm(b, n - 1);
      var g := GeomSum(b, n - 1);
      var p := Pow(b, n - 1);
      assert (b - 1.0) * (g + p) == (b - 1.0) * g + b * p - p;
    }
  }

  /** Horner form: 1 + b + ... + b^n = 1 + b·(1 + ... + b^(n-1)). */
  lemma {:induction false} GeomSumHorner(b: real, n: nat)
    ensures GeomSum(b, n + 1) == 1.0 + b * GeomSum(b, n)
  {
    if n > 0 {
      GeomSumHorner(b, n - 1);
      assert GeomSum(b, n + 1) == GeomSum(b, n) + Pow(b, n);
      assert b * (GeomSum(b, n - 1) + Pow(b, n - 1)) == b * GeomSum(b, n - 1) + Pow(b, n);
    }
  }

  /** GeomSumHorner with both sums named. */
  lemma GeomSumHornerFactored(b: real, n: nat, t: real, s: real)
    requires t == GeomSum(b, n + 1) && s == GeomSum(b, n)
    ensures t == 1.0 + b * s
  {
    GeomSumHorner(b, n);
  }

  /** A geometric sum of n terms splits after its first m terms. */
  lemma {:induction false} GeomSumSplit(b: real, m: nat, n: nat)
    ensures GeomSum(b, m + n) == GeomSum(b, m) + Pow(b, m) * GeomSum(b, n)
  {
    GeomSumSplitFactored(b, m, n, GeomSum(b, m + n), GeomSum(b, m), GeomSum(b, n), Pow(b, m));
  }

  /** GeomSumSplit with every sum and power named, so that each product in the
      proof is over names and not over unfolded calls. */
  lemma {:induction false} GeomSumSplitFactored(b: real, m: nat, n: nat, s: real, sm: real, sn: real, g: real)
    requires s == GeomSum(b, m + n) && sm == GeomSum(b, m) && sn == GeomSum(b, n) && g == Pow(b, m)
    ensures s == sm + g * sn
    decreases n
  {
    if n > 0 {
      var k := m + (n - 1);
      var s', sn', t, q := GeomSum(b, k), GeomSum(b, n - 1), Pow(b, k), Pow(b, n - 1);
      GeomSumSplitFactored(b, m, n - 1, s', sm, sn', g);
      PowAddFactored(b, m, n - 1, t, g, q);
      GeomSumNext(b, k);
      GeomSumNext(b, n - 1);
      SplitStep(s', sm, g, sn', q, t);
    }
  }

  /** PowAdd with the three powers named. */
  lemma PowAddFactored(b: real, m: nat, n: nat, t: real, g: real, q: real)
    requires t == Pow(b, m + n) && g == Pow(b, m) && q == Pow(b, n)
    ensures t == g * q
  {
    PowAdd(b, m, n);
  }

  /** One more term of a geometric sum. */
  lemma GeomSumNext(b: real, n: nat)
    ensures GeomSum(b, n + 1) == GeomSum(b, n) + Pow(b, n)
  {
  }

  /** The inductive step of GeomSumSplit: adding the next term to both sides
      keeps them equal. */
  lemma SplitStep(whole: real, head: real, top: real, tail: real, next: real, term: real)
    requires whole == head + top * tail && term == top * next
    ensures whole + term == head + top * (tail + next)
  {
  }

  /** GeomSumRate with the sum and the power named. */
  lemma GeomSumRateFactored(i: real, n: nat, s: real, g: real)
    requires s == GeomSum(1.0 + i, n) && g == Pow(1.0 + i, n)
    ensures i * s == g - 1.0
  {
    GeomSumRate(i, n);
  }

  /** The closed form of a geometric sum written in the rate i of the base 1 + i:
      i·(1 + (1+i) + ... + (1+i)^(n-1)) = (1+i)^n - 1. */
  lemma {:induction false} GeomSumRate(i: real, n: nat)
    ensures i * GeomSum(1.0 + i, n) == Pow(1.0 + i, n) - 1.0
  {
    if n > 0 {
      GeomSumRate(i, n - 1);
      var g := GeomSum(1.0 + i, n - 1);
      var p := Pow(1.0 + i, n - 1);
      assert i * (g + p) == i * g + i * p;
      assert (1.0 + i) * p == p + i * p;
    }
  }

  /** With a base of at least 1 every term is at least 1. */
  lemma {:induction false} GeomSumAtLeastCount(b: real, n: nat)
    requires b >= 1.0
    ensures GeomSum(b, n) >= n as real
  {
    if n > 0 {
      GeomSumAtLeastCount(b, n - 1);
      PowAtLeastOne(b, n - 1);
    }
  }

  /** With a base above 1 every term is below b^n. */
  lemma {:induction false} GeomSumBelowCountTimesTop(b: real, n: nat)
    requires b > 1.0 && n >= 1
    ensures GeomSum(b, n) < (n as real) * Pow(b, n)
  {
    var p := Pow(b, n - 1);
    var q := Pow(b, n);
    PowStrictlyIncreasing(b, n - 1, n);
    assert GeomSum(b, n) == GeomSum(b, n - 1) + p;
    if n > 1 {
      GeomSumBelowCountTimesTop(b, n - 1);
      var k := (n - 1) as real;
      assert GeomSum(b, n - 1) < k * p;
      MulMonotone(k, p, q);
      assert (n as real) * q == k * q + q;
    } else {
      assert GeomSum(b, n - 1) == 0.0;
    }
  }

  // ---------------------------------------------------------------------------
  // parseFloat(x.toFixed(2))
  // ---------------------------------------------------------------------------

  /** 10^21: `toFixed` returns magnitudes at or above this unrounded
      (ECMA-262, section 21.1.3.3, Number.prototype.toFixed, step 9). */
  const ToFixedLimit: real := 1000000000000000000000.0

  /** A non-negative magnitude rounded to the nearest cent, ties going to the
      larger multiple (the "pick the larger n" rule of toFixed). */
  function RoundCents(a: real): real
    requires a >= 0.0
  {
    ((a * 100.0 + 0.5).Floor as real) / 100.0
  }

  /** `parseFloat(x.toFixed(2))`: toFixed rounds the magnitude and restores
      the sign; magnitudes of 10^21 and more come back unchanged. */
  function Round2(x: real): real
  {
    if x >= ToFixedLimit || x <= -ToFixedLimit then x
    else if x < 0.0 then -RoundCents(-x)
    else RoundCents(x)
  }

  lemma RoundCentsBounds(a: real)
    requires a >= 0.0
    ensures a - 0.005 < RoundCents(a) <= a + 0.005
    ensures RoundCents(a) >= 0.0
    ensures a < ToFixedLimit ==> RoundCents(a) <= ToFixedLimit
  {
    var n := (a * 100.0 + 0.5).Floor;
    assert n as real <= a * 100.0 + 0.5 < n as real + 1.0;
    if a < ToFixedLimit {
      assert a * 100.0 + 0.5 < ToFixedLimit * 100.0 + 1.0;
      assert n <= 100000000000000000000000;
    }
  }

  lemma RoundCentsMonotone(a: real, b: real)
    requires 0.0 <= a <= b
    ensures RoundCents(a) <= RoundCents(b)
  {
    var m := (a * 100.0 + 0.5).Floor;
    var n := (b * 100.0 + 0.5).Floor;
    assert m as real <= a * 100.0 + 0.5 <= b * 100.0 + 0.5 < n as real + 1.0;
    assert m <= n;
  }

  /** A whole number of cents is left as it is. */
  lemma RoundCentsOfCents(k: nat)
    ensures RoundCents(k as real / 100.0) == k as real / 100.0
  {
    assert (k as real / 100.0) * 100.0 + 0.5 == k as real + 0.5;
    assert (k as real + 0.5).Floor == k;
  }

  /** Rounding moves a value by at most half a cent. */
  lemma Round2Error(x: real)
    ensures x - 0.005 <= Round2(x) <= x + 0.005
  {
    if x < 0.0 { RoundCentsBounds(-x); }
    else { RoundCentsBounds(x); }
  }

  /** Rounding keeps the sign, and zero stays zero. */
  lemma Round2Sign(x: real)
    ensures x >= 0.0 ==> Round2(x) >= 0.0
    ensures x <= 0.0 ==> Round2(x) <= 0.0
    ensures Round2(0.0) == 0.0
  {
    if x < 0.0 { RoundCentsBounds(-x); }
    else { RoundCentsBounds(x); }
    RoundCentsOfCents(0);
  }

  /** toFixed rounds the magnitude, so rounding commutes with negation. */
  lemma Round2Odd(x: real)
    ensures Round2(-x) == -Round2(x)
  {
    if x == 0.0 {
      Round2Sign(0.0);
    }
  }

  lemma Round2Monotone(x: real, y: real)
    requires x <= y
    ensures Round2(x) <= Round2(y)
  {
    if x <= -ToFixedLimit || y >= ToFixedLimit {
      // One side is passed through unchanged; the other rounds to within the limit.
      if -ToFixedLimit < x < ToFixedLimit {
        if x < 0.0 { RoundCentsBounds(-x); } else { RoundCentsBounds(x); }
      }
      if -ToFixedLimit < y < ToFixedLimit {
        if y < 0.0 { RoundCentsBounds(-y); } else { RoundCentsBounds(y); }
      }
    } else if 0.0 <= x {
      RoundCentsMonotone(x, y);
    } else if y < 0.0 {
      RoundCentsMonotone(-y, -x);
    } else {
      RoundCentsBounds(-x);
      RoundCentsBounds(y);
    }
  }

  /** A value already in whole cents is unchanged by rounding. */
  lemma Round2OfCents(k: int)
    ensures Round2(k as real / 100.0) == k as real / 100.0
  {
    if k >= 0 {
      RoundCentsOfCents(k);
    } else {
      RoundCentsOfCents(-k);
      assert -(k as real / 100.0) == (-k) as real / 100.0;
    }
  }

  /** Rounding twice is rounding once. */
  lemma Round2Idempotent(x: real)
    ensures Round2(Round2(x)) == Round2(x)
  {
    if -ToFixedLimit < x < ToFixedLimit {
      var a := if x < 0.0 then -x else x;
      var n := (a * 100.0 + 0.5).Floor;
      RoundCentsBounds(a);
      assert n >= 0;
      if x < 0.0 {
        Round2OfCents(-n);
        assert Round2(x) == (-n) as real / 100.0;
      } else {
        Round2OfCents(n);
      }
    }
  }

  // ---------------------------------------------------------------------------
  // Math.round
  // ---------------------------------------------------------------------------

  /** `Math.round`: the nearest integer, ties toward +infinity
      (ECMA-262, section 21.3.2.28). */
  function JsRound(x: real): int
  {
    (x + 0.5).Floor
  }

  lemma JsRoundBounds(x: real)
    ensures x - 0.5 < JsRound(x) as real <= x + 0.5
  {
  }

  lemma JsRoundMonotone(x: real, y: real)
    requires x <= y
    ensures JsRound(x) <= JsRound(y)
  {
    assert JsRound(x) as real <= x + 0.5 <= y + 0.5 < JsRound(y) as real + 1.0;
  }

  lemma JsRoundOfInteger(k: int)
    ensures JsRound(k as real) == k
  {
  }

  // ---------------------------------------------------------------------------
  // JavaScript numbers that are not finite
  // ---------------------------------------------------------------------------

  /** A JavaScript number: finite, an infinity, or NaN. */
  datatype Number = Finite(value: real) | Infinity(negative: bool) | NaN

  /** JavaScript `/` on finite operands: dividing by zero gives NaN for 0/0
      and a signed infinity otherwise. */
  function Divide(a: real, b: real): Number
  {
    if b != 0.0 then Finite(a / b)
    else if a == 0.0 then NaN
    else Infinity(a < 0.0)
  }

  /** `parseFloat(x.toFixed(2))` on any number: toFixed writes a non-finite
      value as "NaN" or "Infinity", which parseFloat reads back unchanged. */
  function RoundNumber(x: Number): Number
  {
    match x
    case Finite(v) => Finite(Round2(v))
    case _ => x
  }
}

=== FILE: one_rep_max.dfy ===
/** One-repetition maximum by the Epley formula
    (src/calculations/fitness/oneRepMax.ts). */
module OneRepMax {
  import opened Results
  import opened Numeric

  datatype Exercise = Squat | Deadlift | BenchPress | Generic

  /** The divisor d in the multiplier 1 + reps/d; the generic case shares
      the deadlift's 30. */
  function Divisor(exercise: Exercise): real
  {
    match exercise
    case Squat => 33.33
    case Deadlift => 30.0
    case BenchPress => 40.0
    case Generic => 30.0
  }

  /** The unrounded estimate weight·(1 + reps/d). */
  function Estimate(weight: real, reps: real, exercise: Exercise): real
  {
    weight * (1.0 + reps / Divisor(exercise))
  }

  /** `calculateOneRepMax(weight, reps, exercise = "generic")`: rejects a
      non-positive weight or repetition count; otherwise the estimate
      rounded to cents, which before rounding exceeds the weight lifted. */
  function CalculateOneRepMax(weight: real, reps: real, exercise: Exercise := Generic): (r: Result<real>)
    ensures r.Ok? <==> weight > 0.0 && reps > 0.0
    ensures r.Ok? ==> r.value == Round2(Estimate(weight, reps, exercise)) && Estimate(weight, reps, exercise) > weight
  {
    if weight <= 0.0 || reps <= 0.0 then Err(InvalidArgument)
    else
      MulStrictlyMonotone(weight, 1.0, 1.0 + reps / Divisor(exercise));
      Ok(Round2(Estimate(weight, reps, exercise)))
  }

  /** Leaving the exercise out means the generic estimate, which is the
      deadlift estimate. */
  lemma GenericIsDeadlift(weight: real, reps: real)
    ensures CalculateOneRepMax(weight, reps) == CalculateOneRepMax(weight, reps, Generic)
    ensures CalculateOneRepMax(weight, reps, Generic) == CalculateOneRepMax(weight, reps, Deadlift)
  {
    assert Divisor(Generic) == Divisor(Deadlift);
    assert Estimate(weight, reps, Generic) == Estimate(weight, reps, Deadlift);
  }

  /** For the same set the bench press gives the smallest estimate and the
      deadlift the largest, strictly before rounding. */
  lemma ExerciseOrder(weight: real, reps: real)
    requires weight > 0.0 && reps > 0.0
    ensures Estimate(weight, reps, BenchPress) < Estimate(weight, reps, Squat) < Estimate(weight, reps, Deadlift)
    ensures CalculateOneRepMax(weight, reps, BenchPress).value <= CalculateOneRepMax(weight, reps, Squat).value
    ensures CalculateOneRepMax(weight, reps, Squat).value <= CalculateOneRepMax(weight, reps, Deadlift).value
  {
    EstimateOrder(weight, reps);
    Round2Monotone(Estimate(weight, reps, BenchPress), Estimate(weight, reps, Squat));
    Round2Monotone(Estimate(weight, reps, Squat), Estimate(weight, reps, Deadlift));
  }

  /** The unrounded estimates alone, strictly ordered by the divisors 40 > 33.33 > 30. */
  lemma EstimateOrder(weight: real, reps: real)
    requires weight > 0.0 && reps > 0.0
    ensures Estimate(weight, reps, BenchPress) < Estimate(weight, reps, Squat) < Estimate(weight, reps, Deadlift)
  {
    assert reps / 40.0 < reps / 33.33;
    assert reps / 33.33 < reps / 30.0;
    MulStrictlyMonotone(weight, 1.0 + reps / 40.0, 1.0 + reps / 33.33);
    MulStrictlyMonotone(weight, 1.0 + reps / 33.33, 1.0 + reps / 30.0);
  }

  /** Thirty repetitions double the weight. */
  lemma ThirtyRepsDouble(weight: real)
    requires weight > 0.0
    ensures CalculateOneRepMax(weight, 30.0) == Ok(Round2(2.0 * weight))
  {
    assert Estimate(weight, 30.0, Generic) == 2.0 * weight;
  }
}

=== FILE: personal_loan.dfy ===
/** Personal-loan instalment and totals (src/calculations/loan/personalLoan.ts). */
module PersonalLoan {
  import opened Results
  import opened Numeric
  import Annuity
  import HomeLoan

  /** `calculatePersonalLoanMonthlyPayment(principal, annualRate, loanTermYears)`:
      the same formula as the home-loan instalment. */
  function CalculatePersonalLoanMonthlyPayment(principal: real, annualRate: real, loanTermYears: nat): (r: Result<real>)
    ensures r.Ok? <==> principal > 0.0 && annualRate > 0.0 && loanTermYears > 0
    ensures r == HomeLoan.CalculateMonthlyPayment(principal, annualRate, loanTermYears)
    ensures r.Ok? ==>
      var e := Annuity.LevelPayment(principal, annualRate / 100.0 / 12.0, loanTermYears * 12);
      r.value == Round2(e) && e * (loanTermYears * 12) as real > principal
  {
    if principal <= 0.0 || annualRate <= 0.0 || loanTermYears <= 0 then Err(InvalidArgument)
    else
      var monthlyRate := annualRate / 100.0 / 12.0;
      var totalPayments := loanTermYears * 12;
      Annuity.LevelPaymentBounds(principal, monthlyRate, totalPayments);
      Ok(Round2(Annuity.LevelPayment(principal, monthlyRate, totalPayments)))
  }

  /** `calculatePersonalLoanDetails(principal, annualRate, loanTermYears)`. */
  function CalculatePersonalLoanDetails(principal: real, annualRate: real, loanTermYears: nat): (r: Result<Annuity.LoanTotals>)
    ensures r.Ok? <==> CalculatePersonalLoanMonthlyPayment(principal, annualRate, loanTermYears).Ok?
    ensures r.Ok? ==>
      var total := CalculatePersonalLoanMonthlyPayment(principal, annualRate, loanTermYears).value * (loanTermYears * 12) as real;
      r.value.totalPayment == Round2(total) && r.value.totalInterest == Round2(total - principal)
    ensures r.Ok? ==> -0.01 <= r.value.totalPayment - r.value.totalInterest - principal <= 0.01
    ensures r == HomeLoan.CalculateLoanDetails(principal, annualRate, loanTermYears)
  {
    var monthlyPayment :- CalculatePersonalLoanMonthlyPayment(principal, annualRate, loanTermYears);
    var totalPayments := loanTermYears * 12;
    Ok(Annuity.Totals(monthlyPayment, totalPayments, principal))
  }
}

=== FILE: results.dfy ===
/** Every calculator either returns a value or throws before computing anything.
    A throw is modelled as `Err`, tagged with what went wrong. */
module Results {

  /** Why a calculator threw. */
  datatype Error =
    /** A numeric argument failed the calculator's validation guard. */
    | InvalidArgument
    /** A call through an imported name that the imported module does not export. */
    | NotAFunction

  /** Failure-compatible result, so that one calculator can call another with `:-`. */
  datatype Result<+T> = Ok(value: T) | Err(error: Error) {

    predicate IsFailure() {
      Err?
    }

    function PropagateFailure<U>(): Result<U>
      requires Err?
    {
      Err(error)
    }

    function Extract(): T
      requires Ok?
    {
      value
    }
  }
}

=== FILE: roi.dfy ===
/** Return on investment (src/calculations/financialRatios/roi.ts). */
module Roi {
  import opened Results
  import opened Numeric

  /** The unrounded gain (f − i)/i as a percentage of the investment. */
  function RoiPercent(initialInvestment: real, finalValue: real): real
    requires initialInvestment != 0.0
  {
    ((finalValue - initialInvestment) / initialInvestment) * 100.0
  }

  /** `calculateROI(initialInvestment, finalValue)`: rejects a non-positive
      investment or a negative final value; otherwise the rounded percentage,
      which is positive before rounding exactly when the investment gained,
      and never below −100 (everything lost). */
  function CalculateRoi(initialInvestment: real, finalValue: real): (r: Result<real>)
    ensures r.Ok? <==> initialInvestment > 0.0 && finalValue >= 0.0
    ensures r.Ok? ==>
      && r.value == Round2(RoiPercent(initialInvestment, finalValue))
      && (RoiPercent(initialInvestment, finalValue) > 0.0 <==> finalValue > initialInvestment)
      && RoiPercent(initialInvestment, finalValue) >= -100.0
      && r.value >= -100.0
  {
    if initialInvestment <= 0.0 || finalValue < 0.0 then Err(InvalidArgument)
    else
      RoiBounds(initialInvestment, finalValue);
      Ok(Round2(RoiPercent(initialInvestment, finalValue)))
  }

  lemma RoiBounds(initialInvestment: real, finalValue: real)
    requires initialInvestment > 0.0 && finalValue >= 0.0
    ensures RoiPercent(initialInvestment, finalValue) > 0.0 <==> finalValue > initialInvestment
    ensures RoiPercent(initialInvestment, finalValue) >= -100.0
    ensures Round2(RoiPercent(initialInvestment, finalValue)) >= -100.0
  {
    var q := (finalValue - initialInvestment) / initialInvestment;
    assert q * initialInvestment == finalValue - initialInvestment;
    if q < -1.0 {
      MulStrictlyMonotone(initialInvestment, q, -1.0);
    }
    if q <= 0.0 {
      MulMonotone(initialInvestment, q, 0.0);
    } else {
      MulPositive(initialInvestment, q);
    }
    Round2Monotone(-100.0, RoiPercent(initialInvestment, finalValue));
    Round2OfCents(-10000);
  }

  /** The percentage recovers the final value: f = i·(1 + ROI/100). */
  lemma RoiRoundTrip(initialInvestment: real, finalValue: real)
    requires initialInvestment > 0.0
    ensures initialInvestment * (1.0 + RoiPercent(initialInvestment, finalValue) / 100.0) == finalValue
  {
    assert RoiPercent(initialInvestment, finalValue) / 100.0 == (finalValue - initialInvestment) / initialInvestment;
  }

  /** Getting back exactly the investment is a return of 0; getting back
      nothing is a return of −100. */
  lemma RoiBreakEvenAndTotalLoss(initialInvestment: real)
    requires initialInvestment > 0.0
    ensures CalculateRoi(initialInvestment, initialInvestment) == Ok(0.0)
    ensures CalculateRoi(initialInvestment, 0.0) == Ok(-100.0)
  {
    Round2Sign(0.0);
    Round2OfCents(-10000);
    assert (-10000) as real / 100.0 == -100.0;
    assert RoiPercent(initialInvestment, 0.0) == -100.0;
  }
}

=== FILE: saving_and_tax_calculators.dfy ===
/** Public Provident Fund maturity (src/calculations/investment/savingAndTaxCalculators.ts). */
module SavingAndTaxCalculators {
  import opened Results
  import opened Numeric
  import Annuity

  /** The loop's final value: the n yearly instalments A, totalling n·A,
      compounded together for n years at r percent. */
  function PpfMaturity(annualInvestment: real, annualInterestRate: real, years: nat): real
  {
    Annuity.Compounded((years as real) * annualInvestment, annualInterestRate / 100.0, years)
  }

  /** `calculatePPF(annualInvestment, annualInterestRate, totalYears = 15)`:
      rejects any argument that is not positive, otherwise the rounded
      maturity, which before rounding exceeds the total invested. */
  function CalculatePpf(annualInvestment: real, annualInterestRate: real, totalYears: nat := 15): (r: Result<real>)
    ensures r.Ok? <==> annualInvestment > 0.0 && annualInterestRate > 0.0 && totalYears > 0
    ensures r.Ok? ==>
      && r.value == Round2(PpfMaturity(annualInvestment, annualInterestRate, totalYears))
      && PpfMaturity(annualInvestment, annualInterestRate, totalYears) > (totalYears as real) * annualInvestment
  {
    if annualInvestment <= 0.0 || annualInterestRate <= 0.0 || totalYears <= 0 then Err(InvalidArgument)
    else
      MulPositive(totalYears as real, annualInvestment);
      Annuity.CompoundedGrowth((totalYears as real) * annualInvestment, annualInterestRate / 100.0, totalYears);
      Ok(Round2(PpfMaturity(annualInvestment, annualInterestRate, totalYears)))
  }

  /** The source's `for` loop: each year adds the instalment to the running
      total and overwrites the maturity with that total compounded for the
      years so far. */
  method PpfLoop(annualInvestment: real, annualInterestRate: real, totalYears: nat := 15) returns (r: Result<real>)
    ensures r == CalculatePpf(annualInvestment, annualInterestRate, totalYears)
  {
    if annualInvestment <= 0.0 || annualInterestRate <= 0.0 || totalYears <= 0 {
      return Err(InvalidArgument);
    }
    var maturityAmount := 0.0;
    var accumulatedAmount := 0.0;
    var year := 1;
    while year <= totalYears
      invariant 1 <= year <= totalYears + 1
      invariant accumulatedAmount == ((year - 1) as real) * annualInvestment
      invariant maturityAmount == PpfMaturity(annualInvestment, annualInterestRate, year - 1)
    {
      accumulatedAmount := accumulatedAmount + annualInvestment;
      assert accumulatedAmount == (year as real) * annualInvestment;
      maturityAmount := accumulatedAmount * Pow(1.0 + annualInterestRate / 100.0, year);
      year := year + 1;
    }
    return Ok(Round2(maturityAmount));
  }

  /** One more year means one more instalment and one more year of growth
      on all of them, so the unrounded maturity strictly increases. */
  lemma PpfIncreasing(annualInvestment: real, annualInterestRate: real, years: nat)
    requires annualInvestment > 0.0 && annualInterestRate > 0.0
    ensures PpfMaturity(annualInvestment, annualInterestRate, years)
          < PpfMaturity(annualInvestment, annualInterestRate, years + 1)
  {
    MulNonNegative(years as real, annualInvestment);
    assert ((years + 1) as real) * annualInvestment == (years as real) * annualInvestment + annualInvestment;
    Annuity.CompoundedIncreasing((years as real) * annualInvestment, ((years + 1) as real) * annualInvestment,
                                 annualInterestRate / 100.0, years);
  }
}

=== FILE: simple_interest.dfy ===
/** Simple interest (src/calculations/investment/simpleInterest.ts). */
module SimpleInterest {
  import opened Results
  import opened Numeric

  /** The unrounded interest P·r·t/100 for a rate in percent per year and a
      time in years. */
  function Interest(principal: real, rate: real, time: real): real
  {
    (principal * rate * time) / 100.0
  }

  /** `calculateSimpleInterest(principal, rate, time)`: rejects any argument
      that is not positive, otherwise the interest rounded to cents, which is
      then never negative. */
  function CalculateSimpleInterest(principal: real, rate: real, time: real): (r: Result<real>)
    ensures r.Ok? <==> principal > 0.0 && rate > 0.0 && time > 0.0
    ensures r.Ok? ==>
      && Interest(principal, rate, time) > 0.0
      && r.value == Round2(Interest(principal, rate, time))
      && r.value >= 0.0
  {
    if principal <= 0.0 || rate <= 0.0 || time <= 0.0 then Err(InvalidArgument)
    else
      MulPositive(principal, rate);
      MulPositive(principal * rate, time);
      Round2Sign(Interest(principal, rate, time));
      Ok(Round2(Interest(principal, rate, time)))
  }

  /** The three arguments play interchangeable roles. */
  lemma InterestSymmetric(principal: real, rate: real, time: real)
    ensures Interest(principal, rate, time) == Interest(rate, principal, time)
    ensures Interest(principal, rate, time) == Interest(time, rate, principal)
    ensures Interest(principal, rate, time) == Interest(principal, time, rate)
  {
  }

  /** Interest is additive in the principal, and likewise in the time. */
  lemma InterestLinear(p1: real, p2: real, rate: real, time: real, k: real)
    ensures Interest(p1 + p2, rate, time) == Interest(p1, rate, time) + Interest(p2, rate, time)
    ensures Interest(k * p1, rate, time) == k * Interest(p1, rate, time)
    ensures Interest(rate, time, p1 + p2) == Interest(rate, time, p1) + Interest(rate, time, p2)
  {
    assert (p1 + p2) * rate * time == p1 * rate * time + p2 * rate * time;
    assert (k * p1) * rate * time == k * (p1 * rate * time);
    assert rate * time * (p1 + p2) == rate * time * p1 + rate * time * p2;
  }
}

=== FILE: sip.dfy ===
/** Maturity of a systematic investment plan whose term is given in months
    (src/calculations/investment/sip.ts). */
module Sip {
  import opened Results
  import opened Numeric
  import Annuity

  /** `calculateSIP(monthlyInvestment, annualReturnRate, totalMonths)`: the
      annuity-due value of `totalMonths` equal deposits, rounded. The value is
      what the month-by-month accumulation reaches, and exceeds the money put in. */
  function CalculateSip(monthlyInvestment: real, annualReturnRate: real, totalMonths: nat): (r: Result<real>)
    ensures r.Ok? <==> monthlyInvestment > 0.0 && annualReturnRate > 0.0 && totalMonths > 0
    ensures r.Ok? ==>
      var i := annualReturnRate / 12.0 / 100.0;
      && r.value == Round2(Annuity.Accumulated(monthlyInvestment, i, totalMonths))
      && Annuity.Accumulated(monthlyInvestment, i, totalMonths) > monthlyInvestment * (totalMonths as real)
  {
    if monthlyInvestment <= 0.0 || annualReturnRate <= 0.0 || totalMonths <= 0 then Err(InvalidArgument)
    else
      var monthlyReturnRate := annualReturnRate / 12.0 / 100.0;
      Annuity.SipValueIsAccumulated(monthlyInvestment, monthlyReturnRate, totalMonths);
      Annuity.SipValueExceedsDeposits(monthlyInvestment, monthlyReturnRate, totalMonths);
      Ok(Round2(Annuity.SipValue(monthlyInvestment, monthlyReturnRate, totalMonths)))
  }

  /** One month's plan is the single deposit grown by one month's return. */
  lemma SingleMonthSip(monthlyInvestment: real, annualReturnRate: real)
    requires monthlyInvestment > 0.0 && annualReturnRate > 0.0
    ensures CalculateSip(monthlyInvestment, annualReturnRate, 1)
         == Ok(Round2(monthlyInvestment * (1.0 + annualReturnRate / 1200.0)))
  {
    Annuity.SipValueSingleMonth(monthlyInvestment, annualReturnRate / 12.0 / 100.0);
    Annuity.SipValueIsAccumulated(monthlyInvestment, annualReturnRate / 12.0 / 100.0, 1);
    assert Annuity.Accumulated(monthlyInvestment, annualReturnRate / 12.0 / 100.0, 1)
        == monthlyInvestment * (1.0 + annualReturnRate / 1200.0);
  }

  /** A longer plan never reports less: the unrounded value grows strictly
      with the term and rounding preserves the order. */
  lemma SipMonotoneInTerm(monthlyInvestment: real, annualReturnRate: real, totalMonths: nat)
    requires monthlyInvestment > 0.0 && annualReturnRate > 0.0 && totalMonths > 0
    ensures CalculateSip(monthlyInvestment, annualReturnRate, totalMonths).value
         <= CalculateSip(monthlyInvestment, annualReturnRate, totalMonths + 1).value
  {
    var i := annualReturnRate / 12.0 / 100.0;
    Annuity.SipValueIncreasing(monthlyInvestment, i, totalMonths);
    Annuity.SipValueIsAccumulated(monthlyInvestment, i, totalMonths);
    Annuity.SipValueIsAccumulated(monthlyInvestment, i, totalMonths + 1);
    Round2Monotone(Annuity.Accumulated(monthlyInvestment, i, totalMonths),
                   Annuity.Accumulated(monthlyInvestment, i, totalMonths + 1));
  }
}

=== FILE: total_interest_paid.dfy ===
/** Total interest paid over a loan whose term is given in months
    (src/calculations/loan/totalInterestPaid.ts). */
module TotalInterestPaid {
  import opened Results
  import opened Numeric
  import Annuity
  import Emi

  /** `calculateTotalInterestPaid(principal, rate, term)`: the rounded
      instalment of `calculateEMI` times the term, less the principal, rounded.
      It validates exactly as the instalment does, so the inner call never
      throws. */
  function CalculateTotalInterestPaid(principal: real, rate: real, term: nat): (r: Result<real>)
    ensures r.Ok? <==> principal > 0.0 && rate > 0.0 && term > 0
    ensures r.Ok? ==>
      && Emi.CalculateEmi(principal, rate, term).Ok?
      && r.value == Round2(Emi.CalculateEmi(principal, rate, term).value * (term as real) - principal)
  {
    if principal <= 0.0 || rate <= 0.0 || term <= 0 then Err(InvalidArgument)
    else
      // calculateEMI validates exactly as this function does, so it cannot throw here.
      Ok(Round2(Emi.CalculateEmi(principal, rate, term).value * (term as real) - principal))
  }

  /** Because the instalment is rounded before it is multiplied by the term,
      the reported interest can be negative, but by no more than half a cent
      per payment. */
  lemma InterestAboveRoundingLoss(principal: real, rate: real, term: nat)
    requires principal > 0.0 && rate > 0.0 && term > 0
    ensures CalculateTotalInterestPaid(principal, rate, term).value >= Round2(-(term as real) * 0.005)
  {
    var emi := Emi.CalculateEmi(principal, rate, term).value;
    InstalmentShortfall(principal, rate, term, emi);
    InterestFromInstalment(principal, rate, term, emi, CalculateTotalInterestPaid(principal, rate, term).value);
  }

  lemma InterestFromInstalment(principal: real, rate: real, term: nat, emi: real, interest: real)
    requires Emi.CalculateEmi(principal, rate, term) == Ok(emi)
    requires CalculateTotalInterestPaid(principal, rate, term) == Ok(interest)
    ensures interest == Round2(emi * (term as real) - principal)
  {
  }

  lemma InstalmentShortfall(principal: real, rate: real, term: nat, emi: real)
    requires Emi.CalculateEmi(principal, rate, term) == Ok(emi)
    ensures Round2(emi * (term as real) - principal) >= Round2(-(term as real) * 0.005)
  {
    RoundedInstalmentShortfall(Annuity.LevelPayment(principal, rate / 12.0 / 100.0, term), emi, term, principal);
  }

  /** If e·n covers the principal, the rounded instalment times n falls short
      of it by at most half a cent per payment. */
  lemma RoundedInstalmentShortfall(e: real, emi: real, term: nat, principal: real)
    requires e * (term as real) > principal && emi == Round2(e)
    ensures Round2(emi * (term as real) - principal) >= Round2(-(term as real) * 0.005)
  {
    var n := term as real;
    Round2Error(e);
    MulMonotone(n, e - 0.005, emi);
    assert n * (e - 0.005) == e * n - n * 0.005;
    Round2Monotone(-(term as real) * 0.005, emi * (term as real) - principal);
  }

  /** Had the unrounded instalment been used, the interest would be positive. */
  lemma UnroundedInterestPositive(principal: real, rate: real, term: nat)
    requires principal > 0.0 && rate > 0.0 && term > 0
    ensures Annuity.LevelPayment(principal, rate / 12.0 / 100.0, term) * (term as real) - principal > 0.0
  {
    Annuity.LevelPaymentBounds(principal, rate / 12.0 / 100.0, term);
  }
}
